=== FILE: README.md ===
# Tensile toolchain resolution, modelled in Dafny

This project models how Tensile's `Validators.py` finds the toolchain it will
call. The toolchain components are `amdclang++`, `amdclang`,
`clang-offload-bundler` and `hipconfig`, or their Windows counterparts. The
model covers four things:

- the per-platform default names (`osSelect`, `ToolchainDefaults`);
- the whitelist classifier (`_supportedComponent` and the four `supported*`
  predicates);
- the executable search (`_validateExecutable`) and its batch entry point
  (`validateToolchain`);
- on Windows, the discovery of the newest `MAJOR.MINOR` ROCm installation
  (`_windowsLatestRocmBin`), which is evaluated when the module is imported.

The model takes several things as parameters instead of reading them:

- The platform is a `Platform` value instead of `os.name`.
- The filesystem enters as `isExe: string -> bool`. This is the answer
  `os.access(path, os.X_OK)` gives for a path string.
- The ROCm root's directory listing is `Option<seq<DirEntry>>`: a sequence of
  `(name, isDir)` entries, or `None` when `iterdir` cannot list the root.
- `PATH` is an `Option<string>`; `None` stands for an unset variable.

Paths follow Python 3.11 `pathlib` in parsed form, `Path(drive, root, parts)`.
`Paths.Parse` models `Path(s)` and `Paths.Str` models `str(p)`. `Paths.Name`
models `p.name` and `Paths.Join` models `p / q`. The probe strings are built
exactly as the source builds them: `str(Path(file))` for the name itself and
`str(dir / file)` for each search directory.

Exceptions become a `Result` whose error names the raise site (module
`Errors`). `ValueError` for no arguments is `NoComponents`, and `ValueError`
for an unsupported name is `UnsupportedComponent`. `FileNotFoundError` is
`NotFound`, the `KeyError` of an unset `PATH` is `PathUnset`, and the
`ValueError` that `max()` raises on an empty listing is `NoRocmVersion`.

Modules, in dependency order:

- `Wrappers`: `Option` and `Result`.
- `Platforms`: the platform, `os.name`, `os.pathsep`, separators and `osSelect`.
- `Errors`: the error type.
- `Strings`: `str.split`, `str.join` and `int()` on digit strings.
- `Paths`: the `pathlib` subset.
- `Defaults`: the default names.
- `Classifier`: the whitelist.
- `RocmPaths`: the ROCm directories.
- `Resolver`: the search and `validateToolchain`.

Two facts about the code shape the model:

- There is no dedicated error for a Windows ROCm root without a version
  directory. The plain `ValueError` that `max()` raises on an empty sequence
  escapes, and the model has one constructor for it (`NoRocmVersion`). A root
  that cannot be listed at all lets the `OSError` of `iterdir` escape
  (`RocmRootUnlisted`).
- Versions compare as the integer tuple `(major, minor)`, so `10.0` beats
  `9.5`. The model compares numbers and proves that example.

## Model

| member | source | states |
|---|---|---|
| Defaults.DefaultsFor | tensilelite/Tensile/Toolchain/Validators.py:60-65 | every default name is a plain lower-case name of at least two characters, and the assembler is the C++ compiler |
| Defaults.CanonicalName | tensilelite/Tensile/Toolchain/Validators.py:61-65 | each role's default name is a single path segment that cannot be read as a drive, so it is its own final segment |
| Defaults.CanonicalNamesDistinct | tensilelite/Tensile/Toolchain/Validators.py:61-65 | on one platform, no two of the four roles share a default name |
| Classifier.SupportedIffFinalSegment | tensilelite/Tensile/Toolchain/Validators.py:68-70 | a name is supported for a role exactly when its final path segment is that role's default name; an exact match is the case with no directory part |
| Classifier.SupportedForCanonical | tensilelite/Tensile/Toolchain/Validators.py:73-118 | each of the four predicates tests the name against its own role's default name and no other |
| Classifier.SupportedAnyIff | tensilelite/Tensile/Toolchain/Validators.py:143-145 | the resolver's four-way test holds exactly when some role accepts the name |
| Classifier.AtMostOneRole | tensilelite/Tensile/Toolchain/Validators.py:73-118 | a name accepted by two roles' predicates is accepted by one role only (the roles are equal) |
| Classifier.SupportedUnderDirectory | tensilelite/Tensile/Toolchain/Validators.py:69 | the default name after any directory (UNC excepted) and a separator, followed by any run of separators, is accepted |
| Classifier.BareNameExact | tensilelite/Tensile/Toolchain/Validators.py:69 | a name without separators or a drive prefix is accepted only if it equals the default name exactly, with no case folding |
| Classifier.SuffixRejected | tensilelite/Tensile/Toolchain/Validators.py:69 | the default name followed by any non-empty suffix without separators (such as `-17`) is rejected |
| Classifier.PosixDirectoryExample | tensilelite/Tensile/Toolchain/Validators.py:94 | `/any/dir/amdclang++` is a supported C++ compiler on POSIX |
| Classifier.PosixSuffixExample | tensilelite/Tensile/Toolchain/Validators.py:94 | `amdclang++-17` is not a supported C++ compiler on POSIX |
| Classifier.PosixCaseExample | tensilelite/Tensile/Toolchain/Validators.py:94 | `AMDCLANG++` is not a supported C++ compiler on POSIX |
| Paths.Parse | tensilelite/Tensile/Toolchain/Validators.py:148 | every parsed segment is non-empty, not `.` and free of separators; on POSIX every parse is well-formed |
| Paths.Join | tensilelite/Tensile/Toolchain/Validators.py:150 | joining an absolute path onto a well-formed directory gives that path; joining a path with neither drive nor root keeps the directory's drive and root and appends the segments; a joined path with segments keeps the joined name; its segments are the right operand's or the directory's followed by them |
| Paths.ParseStr | tensilelite/Tensile/Toolchain/Validators.py:151 | parsing the printed form of a well-formed path gives the path back |
| Paths.ParseSegment | tensilelite/Tensile/Toolchain/Validators.py:69 | a single separator-free segment that is not a drive parses to a relative one-segment path named by it |
| Paths.NameAfterDirectory | tensilelite/Tensile/Toolchain/Validators.py:69 | the name of `dir + sep + t + seps` is `t` whatever `dir` is (UNC excepted) and however many separators trail |
| Paths.EmptyPathName | tensilelite/Tensile/Toolchain/Validators.py:69 | the empty string parses to the empty path, whose name is the empty string |
| Paths.JoinWellFormed | tensilelite/Tensile/Toolchain/Validators.py:150 | joining two well-formed paths gives a well-formed path |
| Strings.Split | tensilelite/Tensile/Toolchain/Validators.py:174 | `str.split` with a one-character separator gives at least one piece, and no piece contains the separator |
| Strings.JoinSplit | tensilelite/Tensile/Toolchain/Validators.py:174 | joining the pieces of a split with the same separator restores the string |
| Strings.SplitJoin | tensilelite/Tensile/Toolchain/Validators.py:174 | splitting a join of separator-free pieces gives the pieces back |
| Strings.LeadingZero | tensilelite/Tensile/Toolchain/Validators.py:50 | `int()` ignores a leading zero, so `01` and `1` have the same value |
| RocmPaths.VersionNameIff | tensilelite/Tensile/Toolchain/Validators.py:48 | the hand-written recogniser accepts exactly the names made of digits, one dot and digits, each side non-empty |
| RocmPaths.VersionPieces | tensilelite/Tensile/Toolchain/Validators.py:50 | a version name splits at `.` into exactly two non-empty digit strings |
| RocmPaths.KeyAtDot | tensilelite/Tensile/Toolchain/Validators.py:50 | the sort key of a version name is the integer value of the digits before its dot and after it |
| RocmPaths.Advance | tensilelite/Tensile/Toolchain/Validators.py:49-50 | one step of `max` over the filtered entries keeps the running-maximum description: an entry replaces the maximum only if it is a candidate with a strictly greater key, so the maximum stays the first of its key |
| RocmPaths.LatestFrom | tensilelite/Tensile/Toolchain/Validators.py:49-50 | the left fold keeps the running maximum: no candidate when there is none, else a candidate whose key no candidate exceeds and which beats every earlier candidate strictly |
| RocmPaths.LatestUnique | tensilelite/Tensile/Toolchain/Validators.py:50 | at most one entry is the maximum that `max` picks, so the choice is determined |
| RocmPaths.JoinBin | tensilelite/Tensile/Toolchain/Validators.py:51 | `p / "bin"` adds the one segment `bin` to `p` |
| RocmPaths.WindowsLatestRocmBin | tensilelite/Tensile/Toolchain/Validators.py:35-51 | fails with the `max()` error exactly when no entry is a directory named `MAJOR.MINOR`; otherwise returns the root, the newest such name (first of equal keys) and `bin` |
| RocmPaths.RocmBinDirs | tensilelite/Tensile/Toolchain/Validators.py:31-54 | on POSIX the two directories print as `/opt/rocm/bin` and `/opt/rocm/lib/llvm/bin`; on Windows a root that cannot be listed fails with the `iterdir` error, a listed root succeeds exactly when a version directory exists and otherwise fails with the `max()` error, both directories are the same, and they print as the ROCm root, the newest version and `bin` |
| RocmPaths.PosixRocmDirsText | tensilelite/Tensile/Toolchain/Validators.py:31-32 | the POSIX ROCm directories print as the source writes them |
| RocmPaths.PosixRocmBinParses | tensilelite/Tensile/Toolchain/Validators.py:31 | `Path("/opt/rocm/bin")` is the rooted path `opt`, `rocm`, `bin` |
| RocmPaths.PosixRocmLlvmBinParses | tensilelite/Tensile/Toolchain/Validators.py:32 | `Path("/opt/rocm/lib/llvm/bin")` is the rooted path `opt`, `rocm`, `lib`, `llvm`, `bin` |
| RocmPaths.WindowsRocmRootParses | tensilelite/Tensile/Toolchain/Validators.py:53 | `Path("C:/Program Files/AMD/ROCm")` on Windows has drive `C:`, root `\` and the three segments |
| RocmPaths.WindowsRocmBinText | tensilelite/Tensile/Toolchain/Validators.py:45 | the discovered directory prints as `C:\Program Files\AMD\ROCm\X.Y\bin` |
| RocmPaths.NumericOrderExample | tensilelite/Tensile/Toolchain/Validators.py:50 | between `9.5` and `10.0`, `10.0` is chosen: keys compare as numbers |
| RocmPaths.EqualKeysKeepFirstExample | tensilelite/Tensile/Toolchain/Validators.py:50 | between `01.0` and `1.0` (equal keys), the first listed is chosen |
| RocmPaths.FilterExample | tensilelite/Tensile/Toolchain/Validators.py:49 | a file named `9.9`, a directory `6.1.2` and a directory `latest` are passed over, and `6.1` is chosen |
| RocmPaths.NoVersionExample | tensilelite/Tensile/Toolchain/Validators.py:50 | a listing with no version directory fails with the `max()` error |
| Resolver.Texts | tensilelite/Tensile/Toolchain/Validators.py:152 | `map(str, searchPaths)`: one printed path per search directory, in order |
| Resolver.CandidateText | tensilelite/Tensile/Toolchain/Validators.py:150-151 | the probe for a single segment with no drive prefix (such as a default tool name) in a directory with at least one segment is the directory's printed form, the separator and the name |
| Resolver.FirstExecutable | tensilelite/Tensile/Toolchain/Validators.py:149-151 | the search returns the first executable probe at or after where it resumes, or none when no probe is executable |
| Resolver.ValidateExecutable | tensilelite/Tensile/Toolchain/Validators.py:133-152 | an unsupported name, and only one, fails with the OS name; a supported name executable as given comes back unchanged; otherwise the first directory whose join is executable wins and no earlier one is executable; not-found happens exactly when nothing is executable and carries the name and every directory joined by `:`; with a total `isExe` no other error arises |
| Resolver.FirstHitUnique | tensilelite/Tensile/Toolchain/Validators.py:149-151 | there is at most one first executable directory |
| Resolver.Search | tensilelite/Tensile/Toolchain/Validators.py:149-151 | the loop stops at a probe that is executable with none executable before it, or finds none executable at all |
| Resolver.Resolve | tensilelite/Tensile/Toolchain/Validators.py:133-152 | the statement-by-statement version with an early-exit loop computes the same result as `Resolver.ValidateExecutable` |
| Resolver.UnsupportedBeforeProbe | tensilelite/Tensile/Toolchain/Validators.py:143-146 | for an unsupported name the result does not depend on the search path or the filesystem |
| Resolver.ExecutableNameIgnoresSearchPath | tensilelite/Tensile/Toolchain/Validators.py:148 | a supported name executable as given is returned unchanged whatever the search path |
| Resolver.DefaultNameProbe | tensilelite/Tensile/Toolchain/Validators.py:143-148 | a default tool name is supported, is probed exactly as written, and parses to a relative path |
| Resolver.RelativeDirectoryProbe | tensilelite/Tensile/Toolchain/Validators.py:150-151 | the probe for a default tool name in a well-formed relative directory with at least one segment is the directory, the separator and the name, and parses to a relative path |
| Resolver.SingleDirectoryHit | tensilelite/Tensile/Toolchain/Validators.py:148-151 | with one search directory, a supported name not executable as given but executable inside the directory resolves to that probe |
| Resolver.RelativeResult | tensilelite/Tensile/Toolchain/Validators.py:141-151 | against the documented "absolute path" return, a default name found as given or through a relative search directory resolves to a relative path |
| Resolver.RelativeResultExample | tensilelite/Tensile/Toolchain/Validators.py:141-151 | with `PATH=bin` and only `bin/amdclang++` executable, POSIX resolution returns `bin/amdclang++`, which is not absolute |
| Resolver.AbsoluteNameNotFound | tensilelite/Tensile/Toolchain/Validators.py:148-152 | an absolute name that is not executable as given is not found, since every join probes the name itself |
| Resolver.LaterDirectoriesIrrelevant | tensilelite/Tensile/Toolchain/Validators.py:149-151 | appending directories after the first hit does not change the result |
| Resolver.SearchedTextLists | tensilelite/Tensile/Toolchain/Validators.py:152 | splitting the not-found list on `:` gives every searched directory back in order, when none contains `:` |
| Resolver.ResolvedIsFixpoint | tensilelite/Tensile/Toolchain/Validators.py:133-152 | validating a validated path again, with the same search path and filesystem, returns it unchanged |
| Resolver.SearchPaths | tensilelite/Tensile/Toolchain/Validators.py:171-174 | the ROCm directory, then the ROCm LLVM directory, then one parsed path per `PATH` entry, in order |
| Resolver.SearchPathsFollowPath | tensilelite/Tensile/Toolchain/Validators.py:171-174 | a `PATH` built from separator-free entries is searched in exactly that order, after the two ROCm directories |
| Resolver.SearchPathsCoverPath | tensilelite/Tensile/Toolchain/Validators.py:174 | the entries searched join back to the whole `PATH` value |
| Resolver.ValidateAll | tensilelite/Tensile/Toolchain/Validators.py:176-177 | succeeds exactly when every argument validates, with the results in argument order; a failure is the error of the first argument that fails |
| Resolver.ValidateAllAppend | tensilelite/Tensile/Toolchain/Validators.py:176-177 | validating a concatenation that succeeds gives the concatenated results |
| Resolver.ValidateAllAppendFirstFails | tensilelite/Tensile/Toolchain/Validators.py:176-177 | a failure among the earlier arguments is raised whatever follows |
| Resolver.ValidateAllAppendSecondFails | tensilelite/Tensile/Toolchain/Validators.py:176-177 | when the earlier arguments succeed, the later arguments' first failure is raised |
| Resolver.ValidateToolchain | tensilelite/Tensile/Toolchain/Validators.py:155-177 | no arguments fails (and only then) with the no-arguments error; an unset `PATH` fails next; one argument gives one string, more give a list of the same length whose entries resolve the arguments in order; a failure is the first failing argument's error |
| Resolver.ImportAndValidate | tensilelite/Tensile/Toolchain/Validators.py:34-54 | a failed Windows discovery fails with its own error before any argument is looked at; a successful one hands the discovered directories to `validateToolchain`; on POSIX it is `validateToolchain` with the fixed ROCm directories; success needs arguments and a `PATH` |

## Left out

- `getVersion` runs a shell command and searches its output with a caller-supplied regular expression, which is process I/O and a general regex engine. When nothing matches it returns `"<unknown>"`.
- `_exeExists` is not modelled as `os.access`. Permission bits, existence and symbolic links are the caller's `isExe`, applied to the printed path.
- Which platform is running (`os.name`, read at import time) is the `Platform` parameter.
- Reading the `PATH` environment variable is the `pathEnv` parameter.
- `Path.iterdir()` and `is_dir()` are replaced by the listing passed in as data, or `None` when the root cannot be listed.
- The regular expression `^\d+\.\d+$` is modelled as ASCII digits, one dot, ASCII digits and the end of the name. Python's `\d` also accepts other Unicode decimal digits, and `$` also matches before a final newline. Directory names of those shapes are not modelled.
- `pathlib` is modelled only as far as the resolver uses it. UNC shares, `\\?\` prefixes and reserved device names on Windows are not modelled, and drive letters are ASCII letters. Path behaviour is that of Python 3.11.
- Exception message text is reduced to the data it carries: the component, the OS name, and the searched directories joined by `:`.
- Resolver.SearchedTextLists: requires that no searched directory contains `:`. On Windows a drive such as `C:` breaks this, and the not-found list, which is joined by `:` rather than `os.pathsep`, cannot be split back there.
- Resolver.ResolvedIsFixpoint: requires that the name parses to a well-formed path. On Windows, Python 3.11 does not print every parsed relative path so that it parses back the same; for example, a first segment that looks like a drive, reached through `./`, is printed without the `./`.
- Resolver.SearchPathsFollowPath: requires that the `PATH` entries contain no `os.pathsep`, because the source splits on it with no quoting.
- RocmPaths.WindowsLatestRocmBin: the source calls it twice at import (lines 53-54), listing the root each time; the model lists the root once and uses that one listing for both directories, so a root whose contents change between the two calls is not modelled. Which `OSError` subclass an unlistable root raises is not distinguished.
- Resolver.ValidateExecutable: `os.access` raises `ValueError` for a path string with an embedded NUL character, which a supported name such as `x\0/amdclang++` produces at the first probe. `isExe` is total, so the model returns the not-found error or a hit there instead, and this `ValueError` is not modelled.
- Resolver.ValidateExecutable: the docstrings of `_validateExecutable` and `validateToolchain` (lines 141 and 162) promise absolute paths, but the code does not: a name executable as given comes back as written, and a relative `PATH` entry gives a relative probe (`Resolver.RelativeResult`, `Resolver.RelativeResultExample`). The model follows the code and promises no absolute result.

=== FILE: classifier.dfy ===
/** Whitelist classification of toolchain component names. */
module Classifier {
  import opened Platforms
  import opened Paths
  import opened Defaults

  /** `_supportedComponent`: the name equals a target, or its final path
      segment (`Path(component).name`) does. */
  predicate SupportedComponent(pl: Platform, component: string, targets: seq<string>) {
    component in targets || Name(Parse(pl, component)) in targets
  }

  predicate SupportedCCompiler(pl: Platform, compiler: string) {
    SupportedComponent(pl, compiler, [DefaultsFor(pl).cCompiler])
  }

  predicate SupportedCxxCompiler(pl: Platform, compiler: string) {
    SupportedComponent(pl, compiler, [DefaultsFor(pl).cxxCompiler])
  }

  predicate SupportedOffloadBundler(pl: Platform, bundler: string) {
    SupportedComponent(pl, bundler, [DefaultsFor(pl).offloadBundler])
  }

  predicate SupportedHip(pl: Platform, smi: string) {
    SupportedComponent(pl, smi, [DefaultsFor(pl).hipConfig])
  }

  /** The classifier for one role. */
  predicate SupportedFor(pl: Platform, role: Role, name: string) {
    match role
    case CxxCompiler => SupportedCxxCompiler(pl, name)
    case CCompiler => SupportedCCompiler(pl, name)
    case OffloadBundler => SupportedOffloadBundler(pl, name)
    case HipConfig => SupportedHip(pl, name)
  }

  /** The test the resolver applies first: supported under any of the four roles. */
  predicate SupportedAny(pl: Platform, name: string) {
    SupportedCxxCompiler(pl, name) || SupportedCCompiler(pl, name)
    || SupportedOffloadBundler(pl, name) || SupportedHip(pl, name)
  }

  /** A name is supported for a role exactly when its final segment is the
      role's canonical name: an exact match is the special case of a name
      with no directory part. */
  lemma SupportedIffFinalSegment(pl: Platform, role: Role, name: string)
    ensures SupportedFor(pl, role, name) <==> Name(Parse(pl, name)) == CanonicalName(pl, role)
  {
    var t := CanonicalName(pl, role);
    SupportedForCanonical(pl, role, name);
    assert name in [t] <==> name == t;
    assert Name(Parse(pl, name)) in [t] <==> Name(Parse(pl, name)) == t;
    if name == t {
      ParseSegment(pl, t);
    }
  }

  /** Each role's classifier tests against that role's canonical name alone. */
  lemma SupportedForCanonical(pl: Platform, role: Role, name: string)
    ensures SupportedFor(pl, role, name) <==> SupportedComponent(pl, name, [CanonicalName(pl, role)])
  {
    match role
    case CxxCompiler =>
    case CCompiler =>
    case OffloadBundler =>
    case HipConfig =>
  }

  /** Supported under some role is the same as supported under the role
      whose canonical name is the final segment. */
  lemma SupportedAnyIff(pl: Platform, name: string)
    ensures SupportedAny(pl, name) <==> exists role: Role :: SupportedFor(pl, role, name)
  {
    if SupportedAny(pl, name) {
      if SupportedCxxCompiler(pl, name) {
        assert SupportedFor(pl, CxxCompiler, name);
      } else if SupportedCCompiler(pl, name) {
        assert SupportedFor(pl, CCompiler, name);
      } else if SupportedOffloadBundler(pl, name) {
        assert SupportedFor(pl, OffloadBundler, name);
      } else {
        assert SupportedFor(pl, HipConfig, name);
      }
    }
  }

  /** A name is supported for at most one role. */
  lemma AtMostOneRole(pl: Platform, name: string, a: Role, b: Role)
    requires SupportedFor(pl, a, name) && SupportedFor(pl, b, name)
    ensures a == b
  {
    SupportedIffFinalSegment(pl, a, name);
    SupportedIffFinalSegment(pl, b, name);
    if a != b {
      CanonicalNamesDistinct(pl, a, b);
    }
  }

  /** The canonical name under any directory, with any trailing separators,
      is supported. */
  lemma SupportedUnderDirectory(pl: Platform, role: Role, dir: string, sepChar: char, tail: string)
    requires IsSep(pl, sepChar)
    requires AllSeps(pl, tail)
    ensures SupportedFor(pl, role, dir + [sepChar] + CanonicalName(pl, role) + tail)
  {
    NameAfterDirectory(pl, dir, sepChar, CanonicalName(pl, role), tail);
    SupportedIffFinalSegment(pl, role, dir + [sepChar] + CanonicalName(pl, role) + tail);
  }

  /** A bare name (no separator, not a drive) is supported only if it is the
      canonical name exactly: no case folding and no version suffixes. */
  lemma BareNameExact(pl: Platform, role: Role, name: string)
    requires ValidPart(pl, name) && !DriveLike(name)
    ensures SupportedFor(pl, role, name) <==> name == CanonicalName(pl, role)
  {
    ParseSegment(pl, name);
    SupportedIffFinalSegment(pl, role, name);
  }

  /** A version suffix such as `-17` makes a canonical name unsupported. */
  lemma SuffixRejected(pl: Platform, role: Role, suffix: string)
    requires |suffix| > 0
    requires NoSeps(pl, suffix)
    ensures !SupportedFor(pl, role, CanonicalName(pl, role) + suffix)
  {
    var t := CanonicalName(pl, role);
    var name := t + suffix;
    assert NoSeps(pl, name) by {
      forall i | 0 <= i < |name| ensures !IsSep(pl, name[i]) {
        if i >= |t| {
          assert name[i] == suffix[i - |t|];
        }
      }
    }
    assert name[..2] == t[..2];
    BareNameExact(pl, role, name);
  }

  /** A compiler under any directory is accepted by its final segment.
      The strings are parameters fixed by `requires`, not literals, so the
      verifier does not unfold definitions on them eagerly. */
  lemma PosixDirectoryExample(dir: string, name: string)
    requires dir == "/any/dir"
    requires name == dir + "/amdclang++"
    ensures SupportedCxxCompiler(Posix, name)
  {
    var t := CanonicalName(Posix, CxxCompiler);
    assert "/amdclang++" == ['/'] + t + "";
    assert name == dir + ['/'] + t + "";
    SupportedUnderDirectory(Posix, CxxCompiler, dir, '/', "");
  }

  /** A version-suffixed compiler is rejected. */
  lemma PosixSuffixExample()
    ensures !SupportedCxxCompiler(Posix, "amdclang++-17")
  {
    SuffixRejected(Posix, CxxCompiler, "-17");
    assert "amdclang++" + "-17" == "amdclang++-17";
  }

  /** Matching is case-sensitive. */
  lemma PosixCaseExample()
    ensures !SupportedCxxCompiler(Posix, "AMDCLANG++")
  {
    BareNameExact(Posix, CxxCompiler, "AMDCLANG++");
  }
}

=== FILE: defaults.dfy ===
/** The canonical executable name of each toolchain component, per platform. */
module Defaults {
  import opened Platforms
  import opened Paths

  /** The `ToolchainDefaults` record: one name per field, chosen by `osSelect`. */
  datatype ToolchainDefaults = ToolchainDefaults(
    cxxCompiler: string,
    cCompiler: string,
    offloadBundler: string,
    assembler: string,
    hipConfig: string)

  /** The four roles the classifier distinguishes; `assembler` is not one of them. */
  datatype Role = CxxCompiler | CCompiler | OffloadBundler | HipConfig

  /** Lower-case letters and the punctuation the default names use. */
  predicate PlainChar(ch: char) {
    'a' <= ch <= 'z' || ch == '+' || ch == '-' || ch == '.'
  }

  /** A name of at least two plain characters. */
  predicate PlainName(s: string) {
    |s| >= 2 && forall i :: 0 <= i < |s| ==> PlainChar(s[i])
  }

  function DefaultsFor(pl: Platform): (d: ToolchainDefaults)
    ensures PlainName(d.cxxCompiler) && PlainName(d.cCompiler)
    ensures PlainName(d.offloadBundler) && PlainName(d.hipConfig)
    ensures d.assembler == d.cxxCompiler
  {
    PosixNamesPlain();
    WindowsNamesPlain();
    ToolchainDefaults(
      cxxCompiler := OsSelect(pl, "amdclang++", "clang++.exe"),
      cCompiler := OsSelect(pl, "amdclang", "clang.exe"),
      offloadBundler := OsSelect(pl, "clang-offload-bundler", "clang-offload-bundler.exe"),
      assembler := OsSelect(pl, "amdclang++", "clang++.exe"),
      hipConfig := OsSelect(pl, "hipconfig", "hipconfig"))
  }

  lemma PosixNamesPlain()
    ensures PlainName("amdclang++") && PlainName("amdclang")
    ensures PlainName("clang-offload-bundler") && PlainName("hipconfig")
  {
  }

  lemma WindowsNamesPlain()
    ensures PlainName("clang++.exe") && PlainName("clang.exe")
    ensures PlainName("clang-offload-bundler.exe") && PlainName("hipconfig")
  {
  }

  /** A plain name is a single path segment that is not a drive. */
  lemma PlainNameIsSegment(pl: Platform, s: string)
    requires PlainName(s)
    ensures ValidPart(pl, s) && !DriveLike(s)
  {
    assert PlainChar(s[1]);
  }

  /** The default name for a role. Every one is a single path segment that
      pathlib cannot mistake for a drive, so it is its own `.name`. */
  function CanonicalName(pl: Platform, role: Role): (name: string)
    ensures ValidPart(pl, name) && !DriveLike(name)
  {
    var d := DefaultsFor(pl);
    var name := match role
      case CxxCompiler => d.cxxCompiler
      case CCompiler => d.cCompiler
      case OffloadBundler => d.offloadBundler
      case HipConfig => d.hipConfig;
    PlainNameIsSegment(pl, name);
    name
  }

  /** No two roles share a canonical name on the same platform. */
  lemma CanonicalNamesDistinct(pl: Platform, a: Role, b: Role)
    requires a != b
    ensures CanonicalName(pl, a) != CanonicalName(pl, b)
  {
  }
}

=== FILE: errors.dfy ===
/** The exceptions the resolver lets escape, one constructor per raise site. */
module Errors {

  datatype Error =
    /** `ValueError`: `validateToolchain` was called with no arguments. */
    | NoComponents
    /** `ValueError`: the name is not a supported component on this OS (`os.name`). */
    | UnsupportedComponent(component: string, osName: string)
    /** `FileNotFoundError`: no executable for the name; `searched` is every
        search directory, in order, joined by `:`. */
    | NotFound(component: string, searched: string)
    /** `KeyError`: the `PATH` environment variable is not set. */
    | PathUnset
    /** `ValueError` from `max()` on an empty sequence: the Windows ROCm root
        holds no `MAJOR.MINOR` directory. */
    | NoRocmVersion
    /** `OSError` (usually `FileNotFoundError`) from `iterdir`: the Windows
        ROCm root cannot be listed. */
    | RocmRootUnlisted
}

=== FILE: paths.dfy ===
/** A model of the part of Python's `pathlib` (as of Python 3.11) that the
    resolver uses: parsing a string into a path, `str()`, `.name`,
    `.is_absolute()` and the `/` operator, for both path flavours. */
module Paths {
  import opened Platforms
  import opened Strings

  /** pathlib's parsed form: drive (`"C:"`, Windows only), root (`"/"`, `"//"`
      or `"\\"`) and the remaining segments. */
  datatype Path = Path(drive: string, root: string, parts: seq<string>)

  predicate IsAsciiLetter(ch: char) {
    'a' <= ch <= 'z' || 'A' <= ch <= 'Z'
  }

  /** A Windows drive prefix such as `C:`. */
  predicate DriveLike(s: string) {
    |s| >= 2 && IsAsciiLetter(s[0]) && s[1] == ':'
  }

  /** A segment pathlib keeps: empty and `.` segments are dropped. */
  predicate Significant(seg: string) {
    seg != "" && seg != "."
  }

  /** No character of `seg` is a separator of the flavour. */
  predicate NoSeps(pl: Platform, seg: string) {
    forall i :: 0 <= i < |seg| ==> !IsSep(pl, seg[i])
  }

  /** A segment as it may appear among a path's parts. */
  predicate ValidPart(pl: Platform, seg: string) {
    Significant(seg) && NoSeps(pl, seg)
  }

  /** The paths pathlib itself produces, and that print back to themselves. */
  predicate WellFormed(pl: Platform, p: Path) {
    && (forall i :: 0 <= i < |p.parts| ==> ValidPart(pl, p.parts[i]))
    && (if pl.Posix? then
          p.drive == "" && (p.root == "" || p.root == "/" || p.root == "//")
        else
          && (p.drive == "" || (|p.drive| == 2 && DriveLike(p.drive)))
          && (p.root == "" || p.root == "\\")
          && (p.drive == "" && p.root == "" && |p.parts| > 0 ==> !DriveLike(p.parts[0])))
  }

  /** Windows pathlib first rewrites the alternative separator `/` to `\`. */
  function Unify(pl: Platform, s: string): (t: string)
    ensures |t| == |s|
    ensures Unified(pl, t)
    decreases |s|
  {
    if |s| == 0 then ""
    else
      var rest := Unify(pl, s[1..]);
      var t := [if IsSep(pl, s[0]) then Sep(pl) else s[0]] + rest;
      assert forall i :: 1 <= i < |t| ==> t[i] == rest[i - 1];
      t
  }

  /** Every separator in `s` is the flavour's main separator. */
  predicate Unified(pl: Platform, s: string) {
    forall i :: 0 <= i < |s| ==> IsSep(pl, s[i]) ==> s[i] == Sep(pl)
  }

  /** The number of leading `c` characters of `s`. */
  function LeadingSeps(s: string, c: char): (n: nat)
    ensures n <= |s|
    ensures forall i :: 0 <= i < n ==> s[i] == c
    ensures n < |s| ==> s[n] != c
    decreases |s|
  {
    if |s| == 0 || s[0] != c then 0 else 1 + LeadingSeps(s[1..], c)
  }

  /** The segments pathlib keeps, in order. */
  function Keep(pieces: seq<string>): (kept: seq<string>)
    ensures |kept| <= |pieces|
    ensures forall i :: 0 <= i < |kept| ==> Significant(kept[i])
    decreases |pieces|
  {
    if |pieces| == 0 then []
    else (if Significant(pieces[0]) then [pieces[0]] else []) + Keep(pieces[1..])
  }

  /** The pieces of a unified string split at the separator hold no separator. */
  lemma {:induction false} SplitUnifiedPieces(pl: Platform, s: string)
    requires Unified(pl, s)
    ensures forall i :: 0 <= i < |Split(s, Sep(pl))| ==> NoSeps(pl, Split(s, Sep(pl))[i])
    decreases |s|
  {
    if |s| > 0 {
      var c := Sep(pl);
      var rest := Split(s[1..], c);
      assert Unified(pl, s[1..]) by {
        forall i | 0 <= i < |s[1..]| ensures IsSep(pl, s[1..][i]) ==> s[1..][i] == c {
          assert s[1..][i] == s[i + 1];
        }
      }
      SplitUnifiedPieces(pl, s[1..]);
      if s[0] != c {
        var head := [s[0]] + rest[0];
        assert NoSeps(pl, head) by {
          forall k | 0 <= k < |head| ensures !IsSep(pl, head[k]) {
            if k > 0 {
              assert head[k] == rest[0][k - 1];
            }
          }
        }
        assert Split(s, c) == [head] + rest[1..];
      }
    }
  }

  /** Keeping the significant pieces of separator-free pieces gives valid parts. */
  lemma {:induction false} KeepNoSeps(pl: Platform, pieces: seq<string>)
    requires forall i :: 0 <= i < |pieces| ==> NoSeps(pl, pieces[i])
    ensures forall i :: 0 <= i < |Keep(pieces)| ==> ValidPart(pl, Keep(pieces)[i])
    decreases |pieces|
  {
    if |pieces| > 0 {
      KeepNoSeps(pl, pieces[1..]);
    }
  }

  /** Splitting a unified string at the separator leaves only valid segments. */
  lemma KeptSegmentsValid(pl: Platform, s: string)
    requires Unified(pl, s)
    ensures forall i :: 0 <= i < |Keep(Split(s, Sep(pl)))| ==> ValidPart(pl, Keep(Split(s, Sep(pl)))[i])
  {
    SplitUnifiedPieces(pl, s);
    KeepNoSeps(pl, Split(s, Sep(pl)));
  }

  /** The drive prefix of a unified string (Windows only). */
  function DriveOf(pl: Platform, t: string): (d: string)
    ensures d == "" || (pl.Windows? && |t| >= 2 && d == t[..2] && DriveLike(d))
  {
    if pl.Windows? && DriveLike(t) then t[..2] else ""
  }

  /** The root for `n` leading separators: POSIX keeps exactly two, else one. */
  function RootOf(pl: Platform, n: nat): string {
    if n == 0 then "" else if pl.Windows? then "\\" else if n == 2 then "//" else "/"
  }

  /** Parse a string whose separators are already unified. */
  function ParseUnified(pl: Platform, t: string): (p: Path)
    requires Unified(pl, t)
    ensures forall i :: 0 <= i < |p.parts| ==> ValidPart(pl, p.parts[i])
  {
    var drive := DriveOf(pl, t);
    var n := LeadingSeps(t[|drive|..], Sep(pl));
    var body := t[|drive| + n..];
    KeptSegmentsValid(pl, body);
    Path(drive, RootOf(pl, n), Keep(Split(body, Sep(pl))))
  }

  /** `Path(s)`: parse a string with the given flavour. */
  function Parse(pl: Platform, s: string): (p: Path)
    ensures forall i :: 0 <= i < |p.parts| ==> ValidPart(pl, p.parts[i])
    ensures pl.Posix? ==> WellFormed(pl, p)
  {
    ParseUnified(pl, Unify(pl, s))
  }

  /** `str(p)`: drive and root, then the parts joined by the flavour's separator;
      a path with nothing in it prints as `.`. */
  function Str(pl: Platform, p: Path): string {
    var body := JoinWith(Sep(pl), p.parts);
    if p.drive == "" && p.root == "" then (if |p.parts| == 0 then "." else body)
    else p.drive + p.root + body
  }

  /** `p.name`: the final segment, or `""` when there is none. */
  function Name(p: Path): string {
    if |p.parts| == 0 then "" else p.parts[|p.parts| - 1]
  }

  /** `p.is_absolute()`: Windows needs both a drive and a root. */
  predicate IsAbsolute(pl: Platform, p: Path) {
    p.root != "" && (pl.Posix? || p.drive != "")
  }

  /** ASCII lower-casing, enough for drive letters. */
  function LowerAscii(s: string): string {
    seq(|s|, i requires 0 <= i < |s| =>
      if 'A' <= s[i] <= 'Z' then (s[i] as int - 'A' as int + 'a' as int) as char else s[i])
  }

  /** A path with one more segment prints with a separator and that segment. */
  lemma StrChild(pl: Platform, p: Path, name: string)
    requires |p.parts| > 0
    ensures Str(pl, Path(p.drive, p.root, p.parts + [name])) == Str(pl, p) + [Sep(pl)] + name
  {
    JoinWithAppend(Sep(pl), p.parts, name);
  }

  /** `p / q`. A rooted `q` replaces `p` (keeping `p`'s drive when `q` has
      none); a `q` on the same drive without a root extends `p`; a `q` on
      another drive replaces `p`; anything else is appended to `p`. */
  function Join(pl: Platform, p: Path, q: Path): (r: Path)
    ensures WellFormed(pl, p) && IsAbsolute(pl, q) ==> r == q
    ensures |q.parts| > 0 ==> Name(r) == Name(q)
    ensures r.parts == q.parts || r.parts == p.parts + q.parts
    ensures q.drive == "" && q.root == "" ==> r == Path(p.drive, p.root, p.parts + q.parts)
  {
    if q.root != "" then
      if q.drive == "" && p.drive != "" then Path(p.drive, q.root, q.parts) else q
    else if q.drive != "" then
      if LowerAscii(q.drive) == LowerAscii(p.drive) then Path(p.drive, p.root, p.parts + q.parts) else q
    else Path(p.drive, p.root, p.parts + q.parts)
  }
  /** Keeping drops nothing from a list of significant segments. */
  lemma {:induction false} KeepAll(xs: seq<string>)
    requires forall i :: 0 <= i < |xs| ==> Significant(xs[i])
    ensures Keep(xs) == xs
    decreases |xs|
  {
    if |xs| > 0 {
      KeepAll(xs[1..]);
      assert [xs[0]] + xs[1..] == xs;
    }
  }

  /** Keeping distributes over concatenation. */
  lemma {:induction false} KeepConcat(a: seq<string>, b: seq<string>)
    ensures Keep(a + b) == Keep(a) + Keep(b)
    decreases |a|
  {
    if |a| > 0 {
      var head := if Significant(a[0]) then [a[0]] else [];
      KeepConcat(a[1..], b);
      assert (a + b)[0] == a[0];
      assert (a + b)[1..] == a[1..] + b;
      assert Keep(a + b) == head + Keep(a[1..] + b);
      assert Keep(a) == head + Keep(a[1..]);
    } else {
      assert a + b == b;
    }
  }

  /** Unifying a string that holds no stray alternative separator changes nothing. */
  lemma {:induction false} UnifyNoop(pl: Platform, s: string)
    requires Unified(pl, s)
    ensures Unify(pl, s) == s
    decreases |s|
  {
    if |s| > 0 {
      assert Unified(pl, s[1..]) by {
        forall i | 0 <= i < |s[1..]| ensures IsSep(pl, s[1..][i]) ==> s[1..][i] == Sep(pl) {
          assert s[1..][i] == s[i + 1];
        }
      }
      UnifyNoop(pl, s[1..]);
      assert [s[0]] + s[1..] == s;
    }
  }

  /** Unifying a run of separators gives a run of the main separator. */
  lemma {:induction false} UnifySeps(pl: Platform, s: string)
    requires AllSeps(pl, s)
    ensures forall i :: 0 <= i < |s| ==> Unify(pl, s)[i] == Sep(pl)
    decreases |s|
  {
    if |s| > 0 {
      UnifySeps(pl, s[1..]);
      var t := Unify(pl, s);
      assert t == [Sep(pl)] + Unify(pl, s[1..]);
      forall i | 1 <= i < |s| ensures t[i] == Sep(pl) {
        assert t[i] == Unify(pl, s[1..])[i - 1];
      }
    }
  }

  /** A join of segments is drive-like only if its first segment is. */
  lemma JoinDriveLike(pl: Platform, xs: seq<string>)
    requires |xs| >= 1
    requires forall i :: 0 <= i < |xs| ==> ValidPart(pl, xs[i])
    requires DriveLike(JoinWith(Sep(pl), xs))
    ensures DriveLike(xs[0])
  {
    var body := JoinWith(Sep(pl), xs);
    JoinStartsWith(xs, Sep(pl));
    if |xs[0]| >= 2 {
      assert xs[0][0] == body[0] && xs[0][1] == body[1];
    }
  }

  /** The printed form of a well-formed Windows path holds no `/`. */
  lemma StrHasNoAltSep(pl: Platform, p: Path)
    requires WellFormed(pl, p)
    ensures Unify(pl, Str(pl, p)) == Str(pl, p)
    ensures Unified(pl, Str(pl, p))
  {
    if pl.Windows? {
      var c := Sep(pl);
      assert forall i :: 0 <= i < |p.parts| ==> '/' !in p.parts[i] by {
        forall i, k | 0 <= i < |p.parts| && 0 <= k < |p.parts[i]| ensures p.parts[i][k] != '/' {
          assert !IsSep(pl, p.parts[i][k]);
        }
      }
      JoinWithoutChar(p.parts, c, '/');
      assert '/' !in p.drive + p.root;
      assert '/' !in Str(pl, p);
    }
    UnifyNoop(pl, Str(pl, p));
  }

  /** The printed form of a well-formed path begins with its drive and only that. */
  lemma StrDrive(pl: Platform, p: Path)
    requires WellFormed(pl, p)
    ensures DriveOf(pl, Str(pl, p)) == p.drive
  {
    var s := Str(pl, p);
    var body := JoinWith(Sep(pl), p.parts);
    if pl.Windows? {
      if p.drive == "" {
        if p.root == "" && |p.parts| > 0 {
          assert s == body;
          if DriveLike(body) {
            JoinDriveLike(pl, p.parts);
          }
        }
        assert !DriveLike(s);
      } else {
        assert s[..2] == p.drive;
      }
    }
  }

  /** Leading separators of a root followed by a body that starts with no separator. */
  lemma {:induction false} LeadingSepsOfRoot(root: string, body: string, c: char)
    requires forall i :: 0 <= i < |root| ==> root[i] == c
    requires body == "" || body[0] != c
    ensures LeadingSeps(root + body, c) == |root|
    decreases |root|
  {
    if |root| > 0 {
      assert (root + body)[0] == c;
      assert (root + body)[1..] == root[1..] + body;
      LeadingSepsOfRoot(root[1..], body, c);
    }
  }

  /** How a unified string of the form drive, root, body parses. */
  lemma ParseUnifiedShape(pl: Platform, t: string, drive: string, root: string, body: string)
    requires Unified(pl, t)
    requires t == drive + root + body
    requires DriveOf(pl, t) == drive
    requires forall i :: 0 <= i < |root| ==> root[i] == Sep(pl)
    requires body == "" || body[0] != Sep(pl)
    ensures ParseUnified(pl, t) == Path(drive, RootOf(pl, |root|), Keep(Split(body, Sep(pl))))
  {
    RootAfterDrive(t, drive, root, body, Sep(pl));
    var k := ParseUnifiedParts(pl, t);
  }

  /** In `drive + root + body`, the leading separators after the drive are the root. */
  lemma RootAfterDrive(t: string, drive: string, root: string, body: string, c: char)
    requires t == drive + root + body
    requires forall i :: 0 <= i < |root| ==> root[i] == c
    requires body == "" || body[0] != c
    ensures LeadingSeps(t[|drive|..], c) == |root|
    ensures t[|drive| + |root|..] == body
  {
    assert t[|drive|..] == root + body;
    LeadingSepsOfRoot(root, body, c);
  }

  /** Printing a well-formed path and parsing it back gives the same path. */
  lemma ParseStr(pl: Platform, p: Path)
    requires WellFormed(pl, p)
    ensures Parse(pl, Str(pl, p)) == p
  {
    if p.drive == "" && p.root == "" && |p.parts| == 0 {
      ParseStrEmpty(pl, p);
    } else {
      ParseStrNonEmpty(pl, p);
    }
  }

  /** The empty path prints as `.`, which parses back to the empty path. */
  lemma ParseStrEmpty(pl: Platform, p: Path)
    requires p.drive == "" && p.root == "" && |p.parts| == 0
    ensures Parse(pl, Str(pl, p)) == p
  {
    var s := Str(pl, p);
    assert s == ".";
    UnifySegment(pl, s);
    assert Unified(pl, s);
    ParseUnifiedShape(pl, s, "", "", ".");
    SplitWithoutSeparator(".", Sep(pl));
  }

  lemma ParseStrNonEmpty(pl: Platform, p: Path)
    requires WellFormed(pl, p)
    requires p.drive != "" || p.root != "" || |p.parts| > 0
    ensures Parse(pl, Str(pl, p)) == p
  {
    var s := Str(pl, p);
    StrHasNoAltSep(pl, p);
    StrDrive(pl, p);
    var body := BodyRoundTrip(pl, p);
    ParseUnifiedShape(pl, s, p.drive, p.root, body);
  }

  /** The segments of a well-formed path survive being joined and split again. */
  lemma BodyRoundTrip(pl: Platform, p: Path) returns (body: string)
    requires WellFormed(pl, p)
    ensures body == JoinWith(Sep(pl), p.parts)
    ensures body == "" || body[0] != Sep(pl)
    ensures Keep(Split(body, Sep(pl))) == p.parts
  {
    var c := Sep(pl);
    body := JoinWith(c, p.parts);
    if |p.parts| > 0 {
      JoinStartsWith(p.parts, c);
      assert body[0] == p.parts[0][0];
      assert !IsSep(pl, body[0]);
      assert forall i :: 0 <= i < |p.parts| ==> c !in p.parts[i];
      SplitJoin(p.parts, c);
      KeepAll(p.parts);
    }
  }

  /** A single valid segment parses to a relative path holding just that segment. */
  lemma ParseSegment(pl: Platform, t: string)
    requires ValidPart(pl, t)
    requires pl.Windows? ==> !DriveLike(t)
    ensures Parse(pl, t) == Path("", "", [t])
    ensures Name(Parse(pl, t)) == t
  {
    ParseStr(pl, Path("", "", [t]));
  }

  /** All characters of `s` are separators of the flavour. */
  predicate AllSeps(pl: Platform, s: string) {
    forall i :: 0 <= i < |s| ==> IsSep(pl, s[i])
  }

  /** Unifying works piecewise. */
  lemma {:induction false} UnifyConcat(pl: Platform, a: string, b: string)
    ensures Unify(pl, a + b) == Unify(pl, a) + Unify(pl, b)
    decreases |a|
  {
    if |a| == 0 {
      assert a + b == b;
    } else {
      assert (a + b)[0] == a[0];
      assert (a + b)[1..] == a[1..] + b;
      UnifyConcat(pl, a[1..], b);
      var h := [if IsSep(pl, a[0]) then Sep(pl) else a[0]];
      assert h + (Unify(pl, a[1..]) + Unify(pl, b)) == (h + Unify(pl, a[1..])) + Unify(pl, b);
    }
  }

  /** A string without separators is left alone by unifying. */
  lemma UnifySegment(pl: Platform, t: string)
    requires NoSeps(pl, t)
    ensures Unify(pl, t) == t
  {
    UnifyNoop(pl, t);
  }

  /** Unifying a directory, a separator, a valid segment and trailing separators works piecewise. */
  lemma UnifyAroundSep(pl: Platform, dir: string, sepChar: char, t: string, tail: string)
    requires IsSep(pl, sepChar)
    requires ValidPart(pl, t)
    ensures Unify(pl, dir + [sepChar] + t + tail) == Unify(pl, dir) + [Sep(pl)] + (t + Unify(pl, tail))
  {
    var w := Unify(pl, dir);
    var ts := Unify(pl, tail);
    var withSep := dir + [sepChar];
    var withSegment := withSep + t;
    assert Unify(pl, withSep) == w + [Sep(pl)] by {
      UnifyConcat(pl, dir, [sepChar]);
      assert Unify(pl, [sepChar]) == [Sep(pl)];
    }
    assert Unify(pl, withSegment) == w + [Sep(pl)] + t by {
      UnifyConcat(pl, withSep, t);
      UnifySegment(pl, t);
    }
    assert Unify(pl, withSegment + tail) == w + [Sep(pl)] + t + ts by {
      UnifyConcat(pl, withSegment, tail);
    }
    assert (w + [Sep(pl)] + t) + ts == w + [Sep(pl)] + (t + ts);
  }

  /** A run of separators holds no segment. */
  lemma {:induction false} KeepSplitSeps(cs: string, c: char)
    requires forall i :: 0 <= i < |cs| ==> cs[i] == c
    ensures Keep(Split(cs, c)) == []
    decreases |cs|
  {
    if |cs| > 0 {
      KeepSplitSeps(cs[1..], c);
      SplitConcat("", cs[1..], c);
      assert [c] + cs[1..] == cs;
    }
  }

  /** A valid segment followed by separators keeps just that segment. */
  lemma KeepSegmentThenSeps(t: string, cs: string, c: char)
    requires Significant(t) && c !in t
    requires forall i :: 0 <= i < |cs| ==> cs[i] == c
    ensures Keep(Split(t + cs, c)) == [t]
  {
    SplitWithoutSeparator(t, c);
    if |cs| == 0 {
      assert t + cs == t;
    } else {
      var rest := cs[1..];
      assert forall i :: 0 <= i < |rest| ==> rest[i] == c;
      KeepSplitSeps(rest, c);
      SplitConcat(t, rest, c);
      assert cs == [c] + rest;
      assert t + cs == t + [c] + rest;
      KeepConcat([t], Split(rest, c));
    }
  }

  /** Dropping up to the separator still leaves the valid segment last. */
  lemma KeptTail(w: string, c: char, v: string, t: string, k: nat)
    requires Keep(Split(v, c)) == [t]
    requires k <= |w| + 1
    ensures |Keep(Split((w + [c] + v)[k..], c))| > 0
    ensures Name(Path("", "", Keep(Split((w + [c] + v)[k..], c)))) == t
  {
    var u := w + [c] + v;
    if k == |w| + 1 {
      assert u[k..] == v;
    } else {
      var x := w[k..];
      assert u[k..] == x + [c] + v by {
        assert u[k..] == u[k..|w|] + u[|w|..];
        assert u[k..|w|] == x;
        assert u[|w|..] == [c] + v;
      }
      SplitConcat(x, v, c);
      KeepConcat(Split(x, c), Split(v, c));
    }
  }

  /** A unified directory, separator and valid segment parse to a path named by the segment. */
  lemma NameOfUnified(pl: Platform, w: string, t: string, v: string)
    requires Unified(pl, w + [Sep(pl)] + v)
    requires ValidPart(pl, t)
    requires |v| >= |t| && v[..|t|] == t
    requires Keep(Split(v, Sep(pl))) == [t]
    ensures Name(ParseUnified(pl, w + [Sep(pl)] + v)) == t
  {
    var c := Sep(pl);
    var u := w + [c] + v;
    var drive := DriveOf(pl, u);
    DriveBeforeSep(pl, w, v);
    assert |v| > 0 && !IsSep(pl, v[0]) by {
      assert v[0] == v[..|t|][0] == t[0];
    }
    SepsEndBeforeSegment(pl, w, v, |drive|);
    var k := ParseUnifiedParts(pl, u);
    KeptTail(w, c, v, t, k);
    NameOfParts(ParseUnified(pl, u), Path("", "", Keep(Split(u[k..], c))));
  }

  /** The name depends on the parts alone. */
  lemma NameOfParts(p: Path, q: Path)
    requires p.parts == q.parts
    ensures Name(p) == Name(q)
  {
  }

  /** A drive ends before the first separator. */
  lemma DriveBeforeSep(pl: Platform, w: string, v: string)
    ensures |DriveOf(pl, w + [Sep(pl)] + v)| <= |w|
  {
    var u := w + [Sep(pl)] + v;
    if |DriveOf(pl, u)| > 0 {
      assert u[|w|] == Sep(pl);
    }
  }

  /** Leading separators after a drive inside the directory end no later
      than the segment that follows the directory's separator. */
  lemma SepsEndBeforeSegment(pl: Platform, w: string, v: string, d: nat)
    requires d <= |w|
    requires |v| > 0 && !IsSep(pl, v[0])
    ensures LeadingSeps((w + [Sep(pl)] + v)[d..], Sep(pl)) <= |w| + 1 - d
  {
    var rest := (w + [Sep(pl)] + v)[d..];
    assert rest[|w| + 1 - d] == v[0];
  }

  /** The parts of a parsed string are the kept pieces after its drive and root. */
  lemma ParseUnifiedParts(pl: Platform, t: string) returns (k: nat)
    requires Unified(pl, t)
    ensures k == |DriveOf(pl, t)| + LeadingSeps(t[|DriveOf(pl, t)|..], Sep(pl))
    ensures k <= |t| && ParseUnified(pl, t).parts == Keep(Split(t[k..], Sep(pl)))
    ensures ParseUnified(pl, t) == Path(DriveOf(pl, t), RootOf(pl, k - |DriveOf(pl, t)|), Keep(Split(t[k..], Sep(pl))))
  {
    k := |DriveOf(pl, t)| + LeadingSeps(t[|DriveOf(pl, t)|..], Sep(pl));
  }

  /** The empty string parses to the empty path, whose name is empty. */
  lemma EmptyPathName(pl: Platform, s: string)
    requires s == ""
    ensures Parse(pl, s) == Path("", "", [])
    ensures Name(Parse(pl, s)) == ""
  {
    assert Unify(pl, s) == "";
    var k := ParseUnifiedParts(pl, s);
    assert Split(s, Sep(pl)) == [""];
  }

  /** Whatever precedes the last separator, and however many separators
      trail, the name is the segment in between. */
  lemma NameAfterDirectory(pl: Platform, dir: string, sepChar: char, t: string, tail: string)
    requires IsSep(pl, sepChar)
    requires ValidPart(pl, t)
    requires AllSeps(pl, tail)
    ensures Name(Parse(pl, dir + [sepChar] + t + tail)) == t
  {
    var c := Sep(pl);
    UnifyAroundSep(pl, dir, sepChar, t, tail);
    var v := t + Unify(pl, tail);
    assert c !in t by {
      forall i | 0 <= i < |t| ensures t[i] != c {
        assert !IsSep(pl, t[i]);
      }
    }
    UnifySeps(pl, tail);
    KeepSegmentThenSeps(t, Unify(pl, tail), c);
    assert v[..|t|] == t;
    NameOfUnified(pl, Unify(pl, dir), t, v);
  }

  /** Joining well-formed paths gives a well-formed path. */
  lemma JoinWellFormed(pl: Platform, p: Path, q: Path)
    requires WellFormed(pl, p) && WellFormed(pl, q)
    ensures WellFormed(pl, Join(pl, p, q))
  {
    var r := Join(pl, p, q);
    assert forall i :: 0 <= i < |r.parts| ==> ValidPart(pl, r.parts[i]) by {
      if r.parts != q.parts {
        forall i | 0 <= i < |r.parts| ensures ValidPart(pl, r.parts[i]) {
          if i >= |p.parts| {
            assert r.parts[i] == q.parts[i - |p.parts|];
          }
        }
      }
    }
  }

  /** A Windows path written with forward slashes unifies to the
      backslash-joined form. */
  lemma {:induction false} UnifyForwardJoin(segs: seq<string>)
    requires forall i :: 0 <= i < |segs| ==> ValidPart(Windows, segs[i])
    ensures Unify(Windows, JoinWith('/', segs)) == JoinWith('\\', segs)
    decreases |segs|
  {
    if |segs| == 1 {
      UnifySegment(Windows, segs[0]);
    } else if |segs| > 1 {
      UnifyForwardJoin(segs[1..]);
      UnifySegment(Windows, segs[0]);
      UnifyConcat(Windows, segs[0] + "/", JoinWith('/', segs[1..]));
      UnifyConcat(Windows, segs[0], "/");
      assert Unify(Windows, "/") == "\\";
    }
  }

  /** Unifying a drive, a slash and a body unifies the body alone. */
  lemma UnifyDriveSlash(drive: string, body: string)
    requires DriveLike(drive) && |drive| == 2
    ensures Unify(Windows, drive + "/" + body) == drive + "\\" + Unify(Windows, body)
  {
    UnifyConcat(Windows, drive + "/", body);
    UnifyConcat(Windows, drive, "/");
    UnifySegment(Windows, drive);
    assert Unify(Windows, "/") == "\\";
  }

  /** `X:/a/b/...` on Windows parses to drive `X:`, a root and the segments. */
  lemma ParseForwardSlashed(drive: string, segs: seq<string>)
    requires |drive| == 2 && DriveLike(drive)
    requires forall i :: 0 <= i < |segs| ==> ValidPart(Windows, segs[i])
    ensures Parse(Windows, drive + "/" + JoinWith('/', segs)) == Path(drive, "\\", segs)
  {
    var p := Path(drive, "\\", segs);
    var s := drive + "/" + JoinWith('/', segs);
    assert Unify(Windows, s) == Str(Windows, p) by {
      UnifyForwardJoin(segs);
      UnifyDriveSlash(drive, JoinWith('/', segs));
    }
    StrHasNoAltSep(Windows, p);
    ParseStr(Windows, p);
  }
}

=== FILE: platform.dfy ===
/** The host operating-system family, made an explicit parameter instead of
    being read from `os.name` when the module is imported. */
module Platforms {

  datatype Platform = Posix | Windows

  /** The value of `os.name`, quoted in the unsupported-component message. */
  function OsName(pl: Platform): string {
    if pl.Posix? then "posix" else "nt"
  }

  /** `os.pathsep`: the separator between entries of the `PATH` variable. */
  function PathListSeparator(pl: Platform): char {
    if pl.Posix? then ':' else ';'
  }

  /** The separator pathlib writes between path segments. */
  function Sep(pl: Platform): char {
    if pl.Posix? then '/' else '\\'
  }

  /** The characters pathlib reads as segment separators: Windows accepts both slashes. */
  predicate IsSep(pl: Platform, ch: char) {
    ch == Sep(pl) || (pl.Windows? && ch == '/')
  }

  /** `osSelect(linux, windows)`: choose the value for the given family. */
  function OsSelect<T>(pl: Platform, linux: T, windows: T): T {
    if pl.Posix? then linux else windows
  }
}

=== FILE: resolver.dfy ===
/** `_validateExecutable` and `validateToolchain`: turning toolchain component
    names into executables found on the search path. The filesystem enters
    only through `isExe`, the answer `os.access(str(path), os.X_OK)` gives for
    a path string. */
module Resolver {
  import opened Wrappers
  import opened Strings
  import opened Platforms
  import opened Paths
  import opened Defaults
  import opened Classifier
  import opened Errors
  import opened RocmPaths

  /** The string probed for `file` inside search directory `dir`:
      `str(dir / file)`. */
  function Candidate(pl: Platform, dir: Path, file: string): string {
    Str(pl, Join(pl, dir, Parse(pl, file)))
  }

  /** The string probed before any directory is searched: `str(Path(file))`. */
  function SelfProbe(pl: Platform, file: string): string {
    Str(pl, Parse(pl, file))
  }

  /** `map(str, searchPaths)`. */
  function Texts(pl: Platform, dirs: seq<Path>): (ts: seq<string>)
    ensures |ts| == |dirs|
    ensures forall i :: 0 <= i < |dirs| ==> ts[i] == Str(pl, dirs[i])
  {
    seq(|dirs|, i requires 0 <= i < |dirs| => Str(pl, dirs[i]))
  }

  /** The search list as the not-found message prints it: `':'.join(...)`,
      whatever the platform's own list separator. */
  function SearchedText(pl: Platform, dirs: seq<Path>): string {
    JoinWith(':', Texts(pl, dirs))
  }

  /** Every string the search loop may probe, one per search directory. */
  function Probes(pl: Platform, dirs: seq<Path>, file: string): (ps: seq<string>)
    ensures |ps| == |dirs|
    ensures forall i :: 0 <= i < |dirs| ==> ps[i] == Candidate(pl, dirs[i], file)
  {
    seq(|dirs|, i requires 0 <= i < |dirs| => Candidate(pl, dirs[i], file))
  }

  /** For a single-segment name such as a default tool name, the probe in a
      directory with segments is the directory's printed form, a separator
      and the name. */
  lemma CandidateText(pl: Platform, dir: Path, t: string)
    requires |dir.parts| > 0
    requires ValidPart(pl, t)
    requires pl.Windows? ==> !DriveLike(t)
    ensures Candidate(pl, dir, t) == Str(pl, dir) + [Sep(pl)] + t
  {
    ParseSegment(pl, t);
    StrChild(pl, dir, t);
  }

  /** Probe `i` is the first executable one. */
  predicate FirstHitAt(probes: seq<string>, isExe: string -> bool, i: nat) {
    && i < |probes|
    && isExe(probes[i])
    && forall j :: 0 <= j < i ==> !isExe(probes[j])
  }

  /** Directory `i` is the first search directory where `file` is executable. */
  predicate FirstHit(pl: Platform, dirs: seq<Path>, file: string, isExe: string -> bool, i: nat) {
    FirstHitAt(Probes(pl, dirs, file), isExe, i)
  }

  /** No search directory holds an executable `file`. */
  predicate NoHit(pl: Platform, dirs: seq<Path>, file: string, isExe: string -> bool) {
    var probes := Probes(pl, dirs, file);
    forall j :: 0 <= j < |probes| ==> !isExe(probes[j])
  }

  /** The `for path in searchPaths` loop, resumed at probe `k` once the
      probes before it have been ruled out. */
  function FirstExecutable(probes: seq<string>, isExe: string -> bool, k: nat): (r: Option<nat>)
    requires k <= |probes|
    requires forall j :: 0 <= j < k ==> !isExe(probes[j])
    ensures r.Some? ==> k <= r.value && FirstHitAt(probes, isExe, r.value)
    ensures r.None? ==> forall j :: 0 <= j < |probes| ==> !isExe(probes[j])
    decreases |probes| - k
  {
    if k == |probes| then None
    else if isExe(probes[k]) then Some(k)
    else FirstExecutable(probes, isExe, k + 1)
  }

  /** `_validateExecutable(file, searchPaths)`. */
  function ValidateExecutable(pl: Platform, file: string, dirs: seq<Path>, isExe: string -> bool): (r: Result<string, Error>)
    // an unsupported name is refused, and only an unsupported name
    ensures !SupportedAny(pl, file) <==> r == Failure(UnsupportedComponent(file, OsName(pl)))
    // a name that is itself executable comes back unchanged
    ensures SupportedAny(pl, file) && isExe(SelfProbe(pl, file)) ==> r == Success(file)
    // otherwise the first search directory holding it wins
    ensures r.Success? && r.value != file ==>
      !isExe(SelfProbe(pl, file)) &&
      exists i: nat :: FirstHit(pl, dirs, file, isExe, i) && r.value == Candidate(pl, dirs[i], file)
    ensures SupportedAny(pl, file) && !isExe(SelfProbe(pl, file)) ==>
      forall i: nat :: FirstHit(pl, dirs, file, isExe, i) ==> r == Success(Candidate(pl, dirs[i], file))
    // not found anywhere: the error names the file and every directory searched
    ensures r == Failure(NotFound(file, SearchedText(pl, dirs))) <==>
      SupportedAny(pl, file) && !isExe(SelfProbe(pl, file)) && NoHit(pl, dirs, file, isExe)
    ensures r.Failure? ==> r.error.UnsupportedComponent? || r.error.NotFound?
  {
    if !SupportedAny(pl, file) then Failure(UnsupportedComponent(file, OsName(pl)))
    else if isExe(SelfProbe(pl, file)) then Success(file)
    else match FirstExecutable(Probes(pl, dirs, file), isExe, 0)
      case Some(i) => Success(Candidate(pl, dirs[i], file))
      case None => Failure(NotFound(file, SearchedText(pl, dirs)))
  }

  /** There is at most one first hit. */
  lemma FirstHitUnique(pl: Platform, dirs: seq<Path>, file: string, isExe: string -> bool, i: nat, j: nat)
    requires FirstHit(pl, dirs, file, isExe, i) && FirstHit(pl, dirs, file, isExe, j)
    ensures i == j
  {
  }

  /** The `for path in searchPaths` loop, written as the source writes it:
      probe each candidate in turn and stop at the first executable one. */
  method Search(probes: seq<string>, isExe: string -> bool) returns (hit: Option<nat>)
    ensures hit.Some? ==> FirstHitAt(probes, isExe, hit.value)
    ensures hit.None? ==> forall j :: 0 <= j < |probes| ==> !isExe(probes[j])
  {
    var i := 0;
    while i < |probes|
      invariant i <= |probes|
      invariant forall j :: 0 <= j < i ==> !isExe(probes[j])
    {
      if isExe(probes[i]) {
        return Some(i);
      }
      i := i + 1;
    }
    return None;
  }

  /** `_validateExecutable` as statements: the name check, the probe of the
      name itself, then the search. */
  method Resolve(pl: Platform, file: string, dirs: seq<Path>, isExe: string -> bool) returns (r: Result<string, Error>)
    ensures r == ValidateExecutable(pl, file, dirs, isExe)
  {
    if !SupportedAny(pl, file) {
      return Failure(UnsupportedComponent(file, OsName(pl)));
    }
    if isExe(SelfProbe(pl, file)) {
      return Success(file);
    }
    var hit := Search(Probes(pl, dirs, file), isExe);
    match hit
    case Some(i) =>
      FirstHitUnique(pl, dirs, file, isExe, i, FirstExecutable(Probes(pl, dirs, file), isExe, 0).value);
      r := Success(Candidate(pl, dirs[i], file));
    case None =>
      r := Failure(NotFound(file, SearchedText(pl, dirs)));
  }

  /** The name is checked before the filesystem is consulted: for an
      unsupported name neither the search path nor the probe matters. */
  lemma UnsupportedBeforeProbe(pl: Platform, file: string, dirs1: seq<Path>, dirs2: seq<Path>,
                               isExe1: string -> bool, isExe2: string -> bool)
    requires !SupportedAny(pl, file)
    ensures ValidateExecutable(pl, file, dirs1, isExe1) == ValidateExecutable(pl, file, dirs2, isExe2)
  {
  }

  /** A name executable as given never looks at the search path. */
  lemma ExecutableNameIgnoresSearchPath(pl: Platform, file: string, dirs1: seq<Path>, dirs2: seq<Path>,
                                        isExe: string -> bool)
    requires SupportedAny(pl, file) && isExe(SelfProbe(pl, file))
    ensures ValidateExecutable(pl, file, dirs1, isExe) == Success(file)
    ensures ValidateExecutable(pl, file, dirs2, isExe) == Success(file)
  {
  }

  /** An absolute name is probed as itself in every directory (`dir / file`
      is `file` then), so one that is not executable as given is not found. */
  lemma AbsoluteNameNotFound(pl: Platform, file: string, dirs: seq<Path>, isExe: string -> bool)
    requires forall j :: 0 <= j < |dirs| ==> WellFormed(pl, dirs[j])
    requires IsAbsolute(pl, Parse(pl, file))
    requires SupportedAny(pl, file) && !isExe(SelfProbe(pl, file))
    ensures ValidateExecutable(pl, file, dirs, isExe) == Failure(NotFound(file, SearchedText(pl, dirs)))
  {
    var probes := Probes(pl, dirs, file);
    forall j | 0 <= j < |probes| ensures !isExe(probes[j]) {
      assert probes[j] == SelfProbe(pl, file);
    }
  }

  /** A default tool name is supported, is probed as written, and parses to
      a relative path. */
  lemma DefaultNameProbe(pl: Platform, role: Role, t: string)
    requires t == CanonicalName(pl, role)
    ensures SupportedAny(pl, t)
    ensures SelfProbe(pl, t) == t
    ensures !IsAbsolute(pl, Parse(pl, t))
  {
    BareNameExact(pl, role, t);
    SupportedAnyIff(pl, t);
    ParseSegment(pl, t);
    assert JoinWith(Sep(pl), [t]) == t;
  }

  /** The probe for a default tool name in a well-formed relative directory
      is itself relative. */
  lemma RelativeDirectoryProbe(pl: Platform, role: Role, dir: Path, t: string)
    requires WellFormed(pl, dir) && dir.drive == "" && dir.root == "" && |dir.parts| > 0
    requires t == CanonicalName(pl, role)
    ensures Candidate(pl, dir, t) == Str(pl, dir) + [Sep(pl)] + t
    ensures !IsAbsolute(pl, Parse(pl, Candidate(pl, dir, t)))
  {
    CandidateText(pl, dir, t);
    ParseSegment(pl, t);
    var q := Path("", "", [t]);
    assert WellFormed(pl, q);
    JoinWellFormed(pl, dir, q);
    ParseStr(pl, Join(pl, dir, q));
  }

  /** With one search directory, a supported name that is not executable as
      given but is executable inside the directory resolves to that probe. */
  lemma SingleDirectoryHit(pl: Platform, dir: Path, file: string, isExe: string -> bool)
    requires SupportedAny(pl, file) && !isExe(SelfProbe(pl, file))
    requires isExe(Candidate(pl, dir, file))
    ensures ValidateExecutable(pl, file, [dir], isExe) == Success(Candidate(pl, dir, file))
  {
    assert FirstHit(pl, [dir], file, isExe, 0);
  }

  /** `_validateExecutable` does not always return an absolute path: a
      default name found as given, or found through a relative search
      directory such as a `PATH` entry `bin`, comes back relative. */
  lemma RelativeResult(pl: Platform, role: Role, dir: Path, t: string, isExe: string -> bool)
    requires WellFormed(pl, dir) && dir.drive == "" && dir.root == "" && |dir.parts| > 0
    requires t == CanonicalName(pl, role)
    requires isExe(t) || isExe(Str(pl, dir) + [Sep(pl)] + t)
    ensures ValidateExecutable(pl, t, [dir], isExe).Success?
    ensures !IsAbsolute(pl, Parse(pl, ValidateExecutable(pl, t, [dir], isExe).value))
  {
    DefaultNameProbe(pl, role, t);
    if isExe(t) {
      assert ValidateExecutable(pl, t, [dir], isExe) == Success(t);
    } else {
      RelativeDirectoryProbe(pl, role, dir, t);
      SingleDirectoryHit(pl, dir, t, isExe);
    }
  }

  /** With `PATH=bin` and `amdclang++` executable only as `bin/amdclang++`,
      the result is `bin/amdclang++`, a relative path. */
  lemma RelativeResultExample(dir: Path, t: string, isExe: string -> bool)
    requires dir == Path("", "", ["bin"])
    requires t == CanonicalName(Posix, CxxCompiler)
    requires forall s :: isExe(s) <==> s == Str(Posix, dir) + "/" + t
    ensures ValidateExecutable(Posix, t, [dir], isExe).Success?
    ensures ValidateExecutable(Posix, t, [dir], isExe).value == "bin/" + t
    ensures !IsAbsolute(Posix, Parse(Posix, ValidateExecutable(Posix, t, [dir], isExe).value))
  {
    assert Str(Posix, dir) == "bin" by {
      assert JoinWith('/', ["bin"]) == "bin";
    }
    assert "bin" + "/" + t != t;
    RelativeResult(Posix, CxxCompiler, dir, t, isExe);
    DefaultNameProbe(Posix, CxxCompiler, t);
    RelativeDirectoryProbe(Posix, CxxCompiler, dir, t);
    SingleDirectoryHit(Posix, dir, t, isExe);
    BinSlash(Str(Posix, dir), t);
  }

  /** `bin` followed by `/` and a name, regrouped with the literal parts
      together. */
  lemma BinSlash(d: string, t: string)
    requires d == "bin"
    ensures d + [Sep(Posix)] + t == "bin/" + t
  {
    assert d + [Sep(Posix)] == "bin/";
  }

  /** Only the directories up to the first hit matter: appending directories
      after it changes nothing. */
  lemma LaterDirectoriesIrrelevant(pl: Platform, file: string, dirs: seq<Path>, more: seq<Path>,
                                   isExe: string -> bool, i: nat)
    requires SupportedAny(pl, file) && !isExe(SelfProbe(pl, file))
    requires FirstHit(pl, dirs, file, isExe, i)
    ensures ValidateExecutable(pl, file, dirs + more, isExe) == ValidateExecutable(pl, file, dirs, isExe)
  {
    assert FirstHit(pl, dirs + more, file, isExe, i) by {
      assert (dirs + more)[i] == dirs[i];
      forall j | 0 <= j < i ensures (dirs + more)[j] == dirs[j] { }
    }
  }

  /** The not-found message lists every search directory in order: splitting
      it on `:` gives them back, as long as none of them contains a `:`. */
  lemma SearchedTextLists(pl: Platform, dirs: seq<Path>)
    requires |dirs| >= 1
    requires forall i :: 0 <= i < |dirs| ==> ':' !in Str(pl, dirs[i])
    ensures Split(SearchedText(pl, dirs), ':') == Texts(pl, dirs)
  {
    SplitJoin(Texts(pl, dirs), ':');
  }

  /** A path the resolver hands back resolves to itself: validating it again
      with the same search path and filesystem returns it unchanged. */
  lemma ResolvedIsFixpoint(pl: Platform, file: string, dirs: seq<Path>, isExe: string -> bool)
    requires forall j :: 0 <= j < |dirs| ==> WellFormed(pl, dirs[j])
    requires WellFormed(pl, Parse(pl, file))
    requires ValidateExecutable(pl, file, dirs, isExe).Success?
    ensures
      var x := ValidateExecutable(pl, file, dirs, isExe).value;
      ValidateExecutable(pl, x, dirs, isExe) == Success(x)
  {
    var x := ValidateExecutable(pl, file, dirs, isExe).value;
    if x != file {
      var i: nat :| FirstHit(pl, dirs, file, isExe, i) && x == Candidate(pl, dirs[i], file);
      var q := Parse(pl, file);
      var joined := Join(pl, dirs[i], q);
      JoinWellFormed(pl, dirs[i], q);
      ParseStr(pl, joined);
      assert Parse(pl, x) == joined;
      var role :| SupportedFor(pl, role, file) by {
        SupportedAnyIff(pl, file);
      }
      SupportedIffFinalSegment(pl, role, file);
      assert |q.parts| > 0;
      assert Name(Parse(pl, x)) == CanonicalName(pl, role);
      SupportedIffFinalSegment(pl, role, x);
      SupportedAnyIff(pl, x);
      assert SelfProbe(pl, x) == x;
    }
  }

  /** The search directories: the two ROCm directories, then each entry of
      `PATH` (split at the platform's list separator) parsed as a path, in
      order. */
  function SearchPaths(pl: Platform, rocm: RocmDirs, pathValue: string): (sp: seq<Path>)
    ensures |sp| == 2 + |Split(pathValue, PathListSeparator(pl))|
    ensures sp[0] == rocm.bin && sp[1] == rocm.llvmBin
    ensures forall i :: 0 <= i < |Split(pathValue, PathListSeparator(pl))| ==>
      sp[i + 2] == Parse(pl, Split(pathValue, PathListSeparator(pl))[i])
  {
    var entries := Split(pathValue, PathListSeparator(pl));
    [rocm.bin, rocm.llvmBin] + seq(|entries|, i requires 0 <= i < |entries| => Parse(pl, entries[i]))
  }

  /** A `PATH` built from a list of directories is searched in exactly that
      order, after the two ROCm directories. */
  lemma SearchPathsFollowPath(pl: Platform, rocm: RocmDirs, entries: seq<string>)
    requires |entries| >= 1
    requires forall i :: 0 <= i < |entries| ==> PathListSeparator(pl) !in entries[i]
    ensures
      var sp := SearchPaths(pl, rocm, JoinWith(PathListSeparator(pl), entries));
      && |sp| == |entries| + 2
      && forall i :: 0 <= i < |entries| ==> sp[i + 2] == Parse(pl, entries[i])
  {
    SplitJoin(entries, PathListSeparator(pl));
  }

  /** The search path after the two ROCm directories covers all of `PATH`:
      the entries it was parsed from join back to the variable's value. */
  lemma SearchPathsCoverPath(pl: Platform, rocm: RocmDirs, pathValue: string)
    ensures
      var entries := Split(pathValue, PathListSeparator(pl));
      && JoinWith(PathListSeparator(pl), entries) == pathValue
      && |SearchPaths(pl, rocm, pathValue)| == |entries| + 2
  {
    JoinSplit(pathValue, PathListSeparator(pl));
  }

  /** Every argument validated in order, as the generator `out` is consumed
      by `tuple(out)`; the first failure is the one raised. */
  function ValidateAll(args: seq<string>, validate: string -> Result<string, Error>): (r: Result<seq<string>, Error>)
    ensures r.Success? <==> forall i :: 0 <= i < |args| ==> validate(args[i]).Success?
    ensures r.Success? ==>
      && |r.value| == |args|
      && forall i :: 0 <= i < |args| ==> validate(args[i]) == Success(r.value[i])
    ensures r.Failure? ==>
      exists i: nat :: i < |args|
        && validate(args[i]) == Failure(r.error)
        && forall j :: 0 <= j < i ==> validate(args[j]).Success?
    decreases |args|
  {
    if |args| == 0 then Success([])
    else
      var first :- validate(args[0]);
      var rest :- ValidateAll(args[1..], validate);
      Success([first] + rest)
  }

  /** Validating two argument lists one after the other is validating their
      concatenation: when both succeed, the results are concatenated ... */
  lemma ValidateAllAppend(a: seq<string>, b: seq<string>, validate: string -> Result<string, Error>)
    requires ValidateAll(a, validate).Success? && ValidateAll(b, validate).Success?
    ensures ValidateAll(a + b, validate) == Success(ValidateAll(a, validate).value + ValidateAll(b, validate).value)
  {
    var xs := ValidateAll(a, validate).value;
    var ys := ValidateAll(b, validate).value;
    forall i | 0 <= i < |a + b|
      ensures validate((a + b)[i]) == Success((xs + ys)[i])
    {
      if i < |a| {
        assert (a + b)[i] == a[i];
      } else {
        assert (a + b)[i] == b[i - |a|];
      }
    }
    assert ValidateAll(a + b, validate).Success?;
    var zs := ValidateAll(a + b, validate).value;
    assert |zs| == |xs + ys|;
    forall i | 0 <= i < |zs| ensures zs[i] == (xs + ys)[i] {
      assert validate((a + b)[i]) == Success(zs[i]);
    }
    assert zs == xs + ys;
  }

  /** ... a failure in the first list is raised before the second is looked at ... */
  lemma {:induction false} ValidateAllAppendFirstFails(a: seq<string>, b: seq<string>, validate: string -> Result<string, Error>)
    requires ValidateAll(a, validate).Failure?
    ensures ValidateAll(a + b, validate) == ValidateAll(a, validate)
    decreases |a|
  {
    assert |a| > 0;
    assert (a + b)[0] == a[0];
    assert (a + b)[1..] == a[1..] + b;
    var first := validate(a[0]);
    if first.Success? {
      ValidateAllAppendFirstFails(a[1..], b, validate);
    }
  }

  /** ... and otherwise a failure in the second list is the one raised. */
  lemma {:induction false} ValidateAllAppendSecondFails(a: seq<string>, b: seq<string>, validate: string -> Result<string, Error>)
    requires ValidateAll(a, validate).Success? && ValidateAll(b, validate).Failure?
    ensures ValidateAll(a + b, validate) == ValidateAll(b, validate)
    decreases |a|
  {
    if |a| == 0 {
      assert a + b == b;
    } else {
      assert (a + b)[0] == a[0];
      assert (a + b)[1..] == a[1..] + b;
      ValidateAllAppendSecondFails(a[1..], b, validate);
    }
  }

  /** What `validateToolchain` returns: one string for one argument, a tuple
      otherwise. */
  datatype Validated = Single(path: string) | Many(paths: seq<string>)

  /** `validateToolchain(*args)`, with the ROCm directories fixed at import
      and `PATH` read from the environment (`None` when unset). */
  function ValidateToolchain(pl: Platform, rocm: RocmDirs, pathEnv: Option<string>, args: seq<string>,
                             isExe: string -> bool): (r: Result<Validated, Error>)
    ensures |args| == 0 <==> r == Failure(NoComponents)
    ensures |args| > 0 && pathEnv.None? <==> r == Failure(PathUnset)
    ensures r.Success? ==> pathEnv.Some? && (r.value.Single? <==> |args| == 1)
    ensures r.Success? && r.value.Single? ==>
      ValidateExecutable(pl, args[0], SearchPaths(pl, rocm, pathEnv.value), isExe) == Success(r.value.path)
    ensures r.Success? && r.value.Many? ==>
      && |r.value.paths| == |args|
      && forall i :: 0 <= i < |args| ==>
           ValidateExecutable(pl, args[i], SearchPaths(pl, rocm, pathEnv.value), isExe) == Success(r.value.paths[i])
    ensures r.Failure? && |args| > 0 && pathEnv.Some? ==>
      exists i: nat :: i < |args|
        && ValidateExecutable(pl, args[i], SearchPaths(pl, rocm, pathEnv.value), isExe) == Failure(r.error)
        && forall j :: 0 <= j < i ==> ValidateExecutable(pl, args[j], SearchPaths(pl, rocm, pathEnv.value), isExe).Success?
  {
    if |args| == 0 then Failure(NoComponents)
    else if pathEnv.None? then Failure(PathUnset)
    else
      var dirs := SearchPaths(pl, rocm, pathEnv.value);
      if |args| == 1 then
        var path :- ValidateExecutable(pl, args[0], dirs, isExe);
        Success(Single(path))
      else
        var paths :- ValidateAll(args, x => ValidateExecutable(pl, x, dirs, isExe));
        Success(Many(paths))
  }

  /** The module as a whole: the ROCm directories are found when it is
      imported (which fails on Windows when the ROCm root cannot be listed or
      holds no versioned directory, before any argument is looked at), then
      `validateToolchain` runs with them. */
  function ImportAndValidate(pl: Platform, rocmRootListing: Option<seq<DirEntry>>, pathEnv: Option<string>,
                             args: seq<string>, isExe: string -> bool): (r: Result<Validated, Error>)
    ensures RocmBinDirs(pl, rocmRootListing).Failure? ==> r == Failure(RocmBinDirs(pl, rocmRootListing).error)
    ensures RocmBinDirs(pl, rocmRootListing).Success? ==>
      r == ValidateToolchain(pl, RocmBinDirs(pl, rocmRootListing).value, pathEnv, args, isExe)
    ensures pl.Posix? ==>
      r == ValidateToolchain(pl, RocmDirs(PosixRocmBin(), PosixRocmLlvmBin()), pathEnv, args, isExe)
    ensures pl.Windows? && rocmRootListing.None? ==> r == Failure(RocmRootUnlisted)
    ensures r.Success? ==> |args| > 0 && pathEnv.Some?
  {
    var rocm :- RocmBinDirs(pl, rocmRootListing);
    ValidateToolchain(pl, rocm, pathEnv, args, isExe)
  }
}

=== FILE: rocm_paths.dfy ===
/** Where the ROCm binaries live: fixed directories on POSIX, the newest
    `MAJOR.MINOR` installation under the ROCm root on Windows. */
module RocmPaths {
  import opened Wrappers
  import opened Strings
  import opened Platforms
  import opened Paths
  import opened Errors

  /** One entry of a directory listing: its name and whether it is a directory. */
  datatype DirEntry = DirEntry(name: string, isDir: bool)

  /** States of the recogniser for `^\d+\.\d+$`. */
  datatype Scan = Start | Major | Dot | Minor | Reject

  function Step(st: Scan, ch: char): Scan {
    match st
    case Start => if IsDigit(ch) then Major else Reject
    case Major => if IsDigit(ch) then Major else if ch == '.' then Dot else Reject
    case Dot => if IsDigit(ch) then Minor else Reject
    case Minor => if IsDigit(ch) then Minor else Reject
    case Reject => Reject
  }

  function Run(st: Scan, s: string): Scan
    decreases |s|
  {
    if |s| == 0 then st else Run(Step(st, s[0]), s[1..])
  }

  /** The recogniser: digits, a dot, digits, end of name. */
  predicate IsVersionName(s: string) {
    Run(Start, s) == Minor
  }

  /** `s[k]` is a dot with only digits before it and at least one digit after it. */
  predicate DotAt(s: string, k: int) {
    0 <= k < |s| - 1 && s[k] == '.' && AllDigits(s[..k]) && AllDigits(s[k + 1..])
  }

  /** The pattern `\d+\.\d+` read declaratively. */
  ghost predicate VersionShaped(s: string) {
    exists k :: DotAt(s, k) && k > 0
  }

  lemma {:induction false} RunReject(s: string)
    ensures Run(Reject, s) == Reject
    decreases |s|
  {
    if |s| > 0 {
      RunReject(s[1..]);
    }
  }

  lemma {:induction false} RunMinor(s: string)
    ensures Run(Minor, s) == Minor <==> AllDigits(s)
    decreases |s|
  {
    if |s| > 0 {
      RunMinor(s[1..]);
      if !IsDigit(s[0]) {
        RunReject(s[1..]);
      }
      assert AllDigits(s) <==> IsDigit(s[0]) && AllDigits(s[1..]) by {
        if IsDigit(s[0]) && AllDigits(s[1..]) {
          forall i | 0 <= i < |s| ensures IsDigit(s[i]) {
            if i > 0 {
              assert s[i] == s[1..][i - 1];
            }
          }
        }
      }
    }
  }

  lemma RunDot(s: string)
    ensures Run(Dot, s) == Minor <==> |s| > 0 && AllDigits(s)
  {
    if |s| > 0 {
      RunMinor(s[1..]);
      RunMinor(s);
      if !IsDigit(s[0]) {
        RunReject(s[1..]);
      }
    }
  }

  /** After the first digit: more digits, then a dot and at least one digit. */
  lemma {:induction false} RunMajor(s: string)
    ensures Run(Major, s) == Minor <==> exists k :: DotAt(s, k)
    decreases |s|
  {
    if |s| > 0 {
      var rest := s[1..];
      if IsDigit(s[0]) {
        RunMajor(rest);
        if exists k :: DotAt(rest, k) {
          var k :| DotAt(rest, k);
          assert s[..k + 1] == [s[0]] + rest[..k];
          assert s[k + 2..] == rest[k + 1..];
          assert DotAt(s, k + 1);
        }
        if exists k :: DotAt(s, k) {
          var k :| DotAt(s, k);
          assert k > 0;
          assert rest[..k - 1] == s[1..k];
          assert rest[k..] == s[k + 1..];
          assert DotAt(rest, k - 1);
        }
      } else if s[0] == '.' {
        RunDot(rest);
        if Run(Major, s) == Minor {
          assert DotAt(s, 0);
        }
        if exists k :: DotAt(s, k) {
          var k :| DotAt(s, k);
          assert k == 0;
          assert rest == s[k + 1..];
        }
      } else {
        RunReject(rest);
      }
    }
  }

  /** The recogniser accepts exactly the names of the form `\d+\.\d+`. */
  lemma VersionNameIff(s: string)
    ensures IsVersionName(s) <==> VersionShaped(s)
  {
    if |s| > 0 && IsDigit(s[0]) {
      var rest := s[1..];
      RunMajor(rest);
      if exists k :: DotAt(rest, k) {
        var k :| DotAt(rest, k);
        assert s[..k + 1] == [s[0]] + rest[..k];
        assert s[k + 2..] == rest[k + 1..];
        assert DotAt(s, k + 1);
      }
      if VersionShaped(s) {
        var k :| DotAt(s, k) && k > 0;
        assert rest[..k - 1] == s[1..k];
        assert rest[k..] == s[k + 1..];
        assert DotAt(rest, k - 1);
      }
    } else if |s| > 0 {
      RunReject(s[1..]);
    }
  }

  /** A version name splits at its one dot into two digit strings. */
  lemma VersionPieces(name: string)
    requires IsVersionName(name)
    ensures |Split(name, '.')| == 2
    ensures AllDigits(Split(name, '.')[0]) && |Split(name, '.')[0]| > 0
    ensures AllDigits(Split(name, '.')[1]) && |Split(name, '.')[1]| > 0
  {
    VersionNameIff(name);
    var k :| DotAt(name, k) && k > 0;
    var major, minor := name[..k], name[k + 1..];
    assert '.' !in major && '.' !in minor;
    assert name == major + ['.'] + minor;
    SplitAtSeparator(major, minor, '.');
    SplitWithoutSeparator(minor, '.');
  }

  /** The `(major, minor)` sort key, `tuple(map(int, name.split(".")))`. */
  datatype Version = Version(major: nat, minor: nat)

  /** Python's tuple comparison: lexicographic on the pair. */
  predicate VersionLess(a: Version, b: Version) {
    a.major < b.major || (a.major == b.major && a.minor < b.minor)
  }

  function VersionKey(name: string): Version
    requires IsVersionName(name)
  {
    VersionPieces(name);
    var pieces := Split(name, '.');
    Version(DigitsValue(pieces[0]), DigitsValue(pieces[1]))
  }

  /** The filter: a directory whose name matches the version pattern. */
  predicate IsCandidate(e: DirEntry) {
    e.isDir && IsVersionName(e.name)
  }

  /** Entry `i` is what `max` picks from the candidates among the first `n`
      entries: a candidate whose key no candidate exceeds, and which beats
      every earlier candidate strictly (`max` keeps the first of equal keys). */
  predicate IsLatestAmong(entries: seq<DirEntry>, n: nat, i: nat) {
    && i < n <= |entries|
    && IsCandidate(entries[i])
    && (forall j :: 0 <= j < n && IsCandidate(entries[j]) ==>
          !VersionLess(VersionKey(entries[i].name), VersionKey(entries[j].name)))
    && (forall j :: 0 <= j < i && IsCandidate(entries[j]) ==>
          VersionLess(VersionKey(entries[j].name), VersionKey(entries[i].name)))
  }

  /** The running maximum after the first `n` entries. */
  predicate BestSoFar(entries: seq<DirEntry>, n: nat, best: Option<nat>) {
    n <= |entries| &&
    match best
    case None => forall j :: 0 <= j < n ==> !IsCandidate(entries[j])
    case Some(i) => IsLatestAmong(entries, n, i)
  }

  /** One step of `max(filter(...), key=...)`: entry `n` replaces the running
      maximum only if it passes the filter and its key is strictly greater. */
  function Advance(entries: seq<DirEntry>, n: nat, best: Option<nat>): (r: Option<nat>)
    requires n < |entries| && BestSoFar(entries, n, best)
    ensures BestSoFar(entries, n + 1, r)
  {
    if !IsCandidate(entries[n]) then best
    else if best.None? || VersionLess(VersionKey(entries[best.value].name), VersionKey(entries[n].name)) then
      Some(n)
    else best
  }

  /** The whole fold, from entry `n` on. */
  function LatestFrom(entries: seq<DirEntry>, n: nat, best: Option<nat>): (r: Option<nat>)
    requires BestSoFar(entries, n, best)
    ensures BestSoFar(entries, |entries|, r)
    decreases |entries| - n
  {
    if n == |entries| then best else LatestFrom(entries, n + 1, Advance(entries, n, best))
  }

  /** The choice is determined: at most one entry satisfies the description. */
  lemma LatestUnique(entries: seq<DirEntry>, n: nat, i: nat, j: nat)
    requires IsLatestAmong(entries, n, i) && IsLatestAmong(entries, n, j)
    ensures i == j
  {
  }

  /** Appending `bin` with the `/` operator adds one segment.
      The strings are parameters fixed by `requires`, not literals, so the
      verifier does not unfold definitions on them eagerly. */
  lemma JoinBin(p: Path, bin: string)
    requires bin == "bin"
    ensures Join(Windows, p, Parse(Windows, bin)) == Path(p.drive, p.root, p.parts + [bin])
  {
    ParseSegment(Windows, bin);
  }

  /** `_windowsLatestRocmBin`: the newest version directory under `root`,
      joined with `bin`; `max` on no candidates raises. */
  function WindowsLatestRocmBin(root: Path, entries: seq<DirEntry>): (r: Result<Path, Error>)
    ensures r.Failure? <==> forall j :: 0 <= j < |entries| ==> !IsCandidate(entries[j])
    ensures r.Failure? ==> r.error == NoRocmVersion
    ensures r.Success? ==> exists i: nat :: IsLatestAmong(entries, |entries|, i)
                                       && r.value == Path(root.drive, root.root, root.parts + [entries[i].name, "bin"])
  {
    match LatestFrom(entries, 0, None)
    case None => Failure(NoRocmVersion)
    case Some(i) =>
      var latest := Path(root.drive, root.root, root.parts + [entries[i].name]);
      var bin := "bin";
      JoinBin(latest, bin);
      assert latest.parts + [bin] == root.parts + [entries[i].name, "bin"];
      Success(Join(Windows, latest, Parse(Windows, bin)))
  }

  /** The key of a version name, read off at its dot. */
  lemma KeyAtDot(name: string, k: int)
    requires DotAt(name, k) && k > 0
    ensures IsVersionName(name)
    ensures VersionKey(name) == Version(DigitsValue(name[..k]), DigitsValue(name[k + 1..]))
  {
    VersionNameIff(name);
    var major, minor := name[..k], name[k + 1..];
    assert '.' !in major && '.' !in minor;
    assert name == major + ['.'] + minor;
    SplitAtSeparator(major, minor, '.');
    SplitWithoutSeparator(minor, '.');
  }

  /** `Path("/opt/rocm/bin")`, in parsed form (see `PosixRocmBinParses`). */
  function PosixRocmBin(): Path {
    Path("", "/", ["opt", "rocm", "bin"])
  }

  /** `Path("/opt/rocm/lib/llvm/bin")`, in parsed form. */
  function PosixRocmLlvmBin(): Path {
    Path("", "/", ["opt", "rocm", "lib", "llvm", "bin"])
  }

  /** `Path("C:/Program Files/AMD/ROCm")`, in parsed form (see `WindowsRocmRootParses`). */
  function WindowsRocmRoot(): Path {
    Path("C:", "\\", ["Program Files", "AMD", "ROCm"])
  }

  /** The two ROCm binary directories: the main one and the LLVM one. */
  datatype RocmDirs = RocmDirs(bin: Path, llvmBin: Path)

  /** `ROCM_BIN_PATH` and `ROCM_LLVM_BIN_PATH`, as fixed when the module is
      loaded: constants on POSIX; on Windows both are the discovered newest
      `bin` directory. The load fails when the root cannot be listed (`None`)
      or holds no version directory. */
  function RocmBinDirs(pl: Platform, rootListing: Option<seq<DirEntry>>): (r: Result<RocmDirs, Error>)
    ensures pl.Posix? ==> r.Success?
    ensures pl.Posix? ==> Str(Posix, r.value.bin) == "/opt/rocm/bin"
    ensures pl.Posix? ==> Str(Posix, r.value.llvmBin) == "/opt/rocm/lib/llvm/bin"
    ensures pl.Windows? && rootListing.None? ==> r == Failure(RocmRootUnlisted)
    ensures pl.Windows? && rootListing.Some? ==>
              (r.Success? <==> exists j :: 0 <= j < |rootListing.value| && IsCandidate(rootListing.value[j]))
    ensures pl.Windows? && rootListing.Some? && r.Failure? ==> r.error == NoRocmVersion
    ensures pl.Windows? && r.Success? ==> r.value.bin == r.value.llvmBin
    ensures pl.Windows? && r.Success? ==>
              rootListing.Some? &&
              exists i: nat :: IsLatestAmong(rootListing.value, |rootListing.value|, i)
                               && Str(Windows, r.value.bin) == "C:\\Program Files\\AMD\\ROCm\\" + rootListing.value[i].name + "\\bin"
  {
    if pl.Posix? then
      PosixRocmDirsText();
      Success(RocmDirs(PosixRocmBin(), PosixRocmLlvmBin()))
    else
      match rootListing
      case None => Failure(RocmRootUnlisted)
      case Some(entries) =>
        var root := WindowsRocmRoot();
        var bin :- WindowsLatestRocmBin(root, entries);
        var i: nat :| IsLatestAmong(entries, |entries|, i)
                      && bin == Path(root.drive, root.root, root.parts + [entries[i].name, "bin"]);
        WindowsRocmBinText(entries[i].name);
        Success(RocmDirs(bin, bin))
  }

  /** The POSIX directories print as written in the source. */
  lemma PosixRocmDirsText()
    ensures Str(Posix, PosixRocmBin()) == "/opt/rocm/bin"
    ensures Str(Posix, PosixRocmLlvmBin()) == "/opt/rocm/lib/llvm/bin"
  {
    StrAnchored(Posix, "", "/", PosixRocmBin().parts);
    StrAnchored(Posix, "", "/", PosixRocmLlvmBin().parts);
    JoinThree('/', "opt", "rocm", "bin");
    JoinFive('/', "opt", "rocm", "lib", "llvm", "bin");
    PosixDirsSpelled();
  }

  /** The spelled-out directory strings, in a lemma of their own so that the
      literal concatenations are evaluated apart from the path reasoning. */
  lemma PosixDirsSpelled()
    ensures "" + "/" + ("opt" + ['/'] + "rocm" + ['/'] + "bin") == "/opt/rocm/bin"
    ensures "" + "/" + ("opt" + ['/'] + "rocm" + ['/'] + "lib" + ['/'] + "llvm" + ['/'] + "bin") == "/opt/rocm/lib/llvm/bin"
  {
  }

  /** A path with a drive or a root prints as those followed by its joined parts. */
  lemma StrAnchored(pl: Platform, drive: string, root: string, parts: seq<string>)
    requires drive != "" || root != ""
    ensures Str(pl, Path(drive, root, parts)) == drive + root + JoinWith(Sep(pl), parts)
  {
  }

  lemma JoinThree(c: char, a: string, b: string, d: string)
    ensures JoinWith(c, [a, b, d]) == a + [c] + b + [c] + d
  {
    assert [a, b, d][1..] == [b, d];
    assert [b, d][1..] == [d];
  }

  lemma JoinFive(c: char, a: string, b: string, d: string, e: string, f: string)
    ensures JoinWith(c, [a, b, d, e, f]) == a + [c] + b + [c] + d + [c] + e + [c] + f
  {
    assert [a, b, d, e, f][1..] == [b, d, e, f];
    assert [b, d, e, f][1..] == [d, e, f];
    JoinThree(c, d, e, f);
  }

  /** Parsing the POSIX directory strings gives the parsed forms used above.
      The strings are parameters fixed by `requires`, not literals, so the
      verifier does not unfold definitions on them eagerly. */
  lemma PosixRocmBinParses(s: string)
    requires s == "/opt/rocm/bin"
    ensures Parse(Posix, s) == PosixRocmBin()
  {
    PosixRocmDirsText();
    PosixDirsWellFormed();
    ParseStr(Posix, PosixRocmBin());
  }

  /** The strings are parameters fixed by `requires`, not literals, so the
      verifier does not unfold definitions on them eagerly. */
  lemma PosixRocmLlvmBinParses(s: string)
    requires s == "/opt/rocm/lib/llvm/bin"
    ensures Parse(Posix, s) == PosixRocmLlvmBin()
  {
    PosixRocmDirsText();
    PosixDirsWellFormed();
    ParseStr(Posix, PosixRocmLlvmBin());
  }

  lemma PosixDirsWellFormed()
    ensures WellFormed(Posix, PosixRocmBin()) && WellFormed(Posix, PosixRocmLlvmBin())
  {
  }

  /** Parsing the Windows root string (the drive, then the rest written with
      forward slashes) gives the parsed form used above.
      The strings are parameters fixed by `requires`, not literals, so the
      verifier does not unfold definitions on them eagerly. */
  lemma WindowsRocmRootParses(s: string)
    requires s == "C:" + "/" + "Program Files/AMD/ROCm"
    ensures Parse(Windows, s) == WindowsRocmRoot()
  {
    var segs := ["Program Files", "AMD", "ROCm"];
    assert JoinWith('/', segs) == "Program Files/AMD/ROCm" by {
      assert segs[1..] == ["AMD", "ROCm"];
    }
    assert forall i :: 0 <= i < |segs| ==> ValidPart(Windows, segs[i]);
    ParseForwardSlashed("C:", segs);
  }

  /** The discovered directory prints as the root, the version and `bin`. */
  lemma WindowsRocmBinText(name: string)
    ensures
      var root := WindowsRocmRoot();
      Str(Windows, Path(root.drive, root.root, root.parts + [name, "bin"]))
        == "C:\\Program Files\\AMD\\ROCm\\" + name + "\\bin"
  {
    var root := WindowsRocmRoot();
    var parts := root.parts + [name, "bin"];
    assert parts == ["Program Files", "AMD", "ROCm", name, "bin"];
    StrAnchored(Windows, "C:", "\\", parts);
    JoinFive('\\', "Program Files", "AMD", "ROCm", name, "bin");
    WindowsBinSpelled(name);
  }

  /** The spelled-out `bin` directory for a version `name`, regrouped so that
      only the literal parts are evaluated. */
  lemma WindowsBinSpelled(name: string)
    ensures "C:" + "\\" + ("Program Files" + ['\\'] + "AMD" + ['\\'] + "ROCm" + ['\\'] + name + ['\\'] + "bin")
              == "C:\\Program Files\\AMD\\ROCm\\" + name + "\\bin"
  {
    Regroup("C:" + "\\", "Program Files" + ['\\'] + "AMD" + ['\\'] + "ROCm" + ['\\'], name, ['\\'], "bin");
    WindowsRootSpelled();
  }

  /** The literal parts of the Windows spelling, evaluated apart from any unknown name. */
  lemma WindowsRootSpelled()
    ensures "C:" + "\\" + ("Program Files" + ['\\'] + "AMD" + ['\\'] + "ROCm" + ['\\']) == "C:\\Program Files\\AMD\\ROCm\\"
    ensures ['\\'] + "bin" == "\\bin"
  {
  }

  /** Reassociates a concatenation so that the literal parts come together, a
      step the verifier does not take on its own inside the longer spelling. */
  lemma Regroup(a: string, p: string, n: string, s: string, t: string)
    ensures a + (p + n + s + t) == a + p + n + (s + t)
  {
  }

  /** Keys compare as numbers, not text: `10.0` is newer than `9.5`. */
  lemma NumericOrderExample(root: Path, entries: seq<DirEntry>)
    requires entries == [DirEntry("9.5", true), DirEntry("10.0", true)]
    ensures WindowsLatestRocmBin(root, entries) == Success(Path(root.drive, root.root, root.parts + ["10.0", "bin"]))
  {
    NumericOrderKeys(entries);
    var r := WindowsLatestRocmBin(root, entries);
    var i: nat :| IsLatestAmong(entries, |entries|, i)
                  && r.value == Path(root.drive, root.root, root.parts + [entries[i].name, "bin"]);
    LatestUnique(entries, |entries|, i, 1);
  }

  lemma NumericOrderKeys(entries: seq<DirEntry>)
    requires entries == [DirEntry("9.5", true), DirEntry("10.0", true)]
    ensures IsLatestAmong(entries, |entries|, 1)
  {
    NumericOrderNames(entries[0].name, entries[1].name);
  }

  /** The strings are parameters fixed by `requires`, not literals, so the
      verifier does not unfold definitions on them eagerly. */
  lemma NumericOrderNames(older: string, newer: string)
    requires older == "9.5" && newer == "10.0"
    ensures IsVersionName(older) && IsVersionName(newer)
    ensures VersionLess(VersionKey(older), VersionKey(newer))
  {
    var olderKey := KeyOfExample("9", "5", older);
    var newerKey := KeyOfExample("10", "0", newer);
  }

  /** The key of a name written as two digit strings around a dot. */
  lemma KeyOfExample(major: string, minor: string, name: string) returns (key: Version)
    requires |major| > 0 && AllDigits(major) && |minor| > 0 && AllDigits(minor)
    requires name == major + "." + minor
    ensures IsVersionName(name) && VersionKey(name) == key
    ensures key == Version(DigitsValue(major), DigitsValue(minor))
  {
    assert DotAt(name, |major|) by {
      assert name[..|major|] == major && name[|major| + 1..] == minor;
    }
    KeyAtDot(name, |major|);
    assert name[..|major|] == major && name[|major| + 1..] == minor;
    key := Version(DigitsValue(major), DigitsValue(minor));
  }

  /** Equal keys keep the first directory listed: `01.0` before `1.0`. */
  lemma EqualKeysKeepFirstExample(root: Path, entries: seq<DirEntry>)
    requires entries == [DirEntry("01.0", true), DirEntry("1.0", true)]
    ensures WindowsLatestRocmBin(root, entries) == Success(Path(root.drive, root.root, root.parts + ["01.0", "bin"]))
  {
    EqualKeyNames(entries[0].name, entries[1].name);
    assert IsLatestAmong(entries, |entries|, 0);
    var r := WindowsLatestRocmBin(root, entries);
    var i: nat :| IsLatestAmong(entries, |entries|, i)
                  && r.value == Path(root.drive, root.root, root.parts + [entries[i].name, "bin"]);
    LatestUnique(entries, |entries|, i, 0);
  }

  /** The strings are parameters fixed by `requires`, not literals, so the
      verifier does not unfold definitions on them eagerly. */
  lemma EqualKeyNames(padded: string, plain: string)
    requires padded == "01.0" && plain == "1.0"
    ensures IsVersionName(padded) && IsVersionName(plain)
    ensures VersionKey(padded) == VersionKey(plain)
  {
    var paddedKey := KeyOfExample("01", "0", padded);
    var plainKey := KeyOfExample("1", "0", plain);
    LeadingZero("1");
    assert "0" + "1" == "01";
  }

  /** Files, and directories not named `MAJOR.MINOR`, are passed over. */
  lemma FilterExample(root: Path, entries: seq<DirEntry>)
    requires entries == [DirEntry("9.9", false), DirEntry("6.1.2", true), DirEntry("latest", true), DirEntry("6.1", true)]
    ensures WindowsLatestRocmBin(root, entries) == Success(Path(root.drive, root.root, root.parts + ["6.1", "bin"]))
  {
    FilterNames(entries[1].name, entries[2].name, entries[3].name);
    assert forall j :: 0 <= j < |entries| && IsCandidate(entries[j]) ==> j == 3;
    assert IsLatestAmong(entries, |entries|, 3);
    var r := WindowsLatestRocmBin(root, entries);
    var i: nat :| IsLatestAmong(entries, |entries|, i)
                  && r.value == Path(root.drive, root.root, root.parts + [entries[i].name, "bin"]);
    LatestUnique(entries, |entries|, i, 3);
  }

  /** The strings are parameters fixed by `requires`, not literals, so the
      verifier does not unfold definitions on them eagerly. */
  lemma FilterNames(patch: string, word: string, version: string)
    requires patch == "6.1.2" && word == "latest" && version == "6.1"
    ensures !IsVersionName(patch) && !IsVersionName(word) && IsVersionName(version)
  {
    var key := KeyOfExample("6", "1", version);
    NotVersionPatch(patch);
    NotVersionWord(word);
  }

  /** The strings are parameters fixed by `requires`, not literals, so the
      verifier does not unfold definitions on them eagerly. */
  lemma NotVersionPatch(patch: string)
    requires patch == "6.1.2"
    ensures !IsVersionName(patch)
  {
    RunReject(patch[4..]);
    assert Run(Minor, patch[3..]) == Reject;
    assert Run(Dot, patch[2..]) == Reject;
    assert Run(Major, patch[1..]) == Reject;
  }

  /** The strings are parameters fixed by `requires`, not literals, so the
      verifier does not unfold definitions on them eagerly. */
  lemma NotVersionWord(word: string)
    requires word == "latest"
    ensures !IsVersionName(word)
  {
    RunReject(word[1..]);
  }

  /** A root holding no version directory has no newest one. */
  lemma NoVersionExample(root: Path, entries: seq<DirEntry>)
    requires entries == [DirEntry("latest", true), DirEntry("6.1", false)]
    ensures WindowsLatestRocmBin(root, entries) == Failure(NoRocmVersion)
  {
    NotVersionWord(entries[0].name);
    assert forall j :: 0 <= j < |entries| ==> !IsCandidate(entries[j]);
  }
}

=== FILE: strings.dfy ===
/** The few operations on Python `str` values that the resolver relies on. */
module Strings {

  /** Python's `s.split(c)` for a one-character separator: the pieces between
      occurrences of `c`, always at least one (so `"".split(c) == [""]`). */
  function Split(s: string, c: char): (pieces: seq<string>)
    ensures |pieces| >= 1
    ensures forall i :: 0 <= i < |pieces| ==> c !in pieces[i]
    decreases |s|
  {
    if |s| == 0 then [""] else SplitStep(s[0], c, Split(s[1..], c))
  }

  /** Python's `sep.join(xs)` for a one-character separator. */
  function JoinWith(c: char, xs: seq<string>): (s: string)
    ensures |xs| == 1 ==> s == xs[0]
    decreases |xs|
  {
    if |xs| == 0 then ""
    else if |xs| == 1 then xs[0]
    else xs[0] + [c] + JoinWith(c, xs[1..])
  }

  /** Joining one more piece adds a separator and that piece at the end. */
  lemma {:induction false} JoinWithAppend(c: char, xs: seq<string>, x: string)
    requires |xs| > 0
    ensures JoinWith(c, xs + [x]) == JoinWith(c, xs) + [c] + x
    decreases |xs|
  {
    if |xs| == 1 {
      assert (xs + [x])[1..] == [x];
    } else {
      assert (xs + [x])[1..] == xs[1..] + [x];
      JoinWithAppend(c, xs[1..], x);
    }
  }

  /** Joining the pieces of a split restores the original string. */
  lemma {:induction false} JoinSplit(s: string, c: char)
    ensures JoinWith(c, Split(s, c)) == s
    decreases |s|
  {
    if |s| > 0 {
      var rest := Split(s[1..], c);
      JoinSplit(s[1..], c);
      if s[0] == c {
        assert Split(s, c) == [""] + rest;
        assert ([""] + rest)[1..] == rest;
      } else {
        var pieces := [[s[0]] + rest[0]] + rest[1..];
        assert Split(s, c) == pieces;
        if |rest| == 1 {
          assert s == [s[0]] + s[1..];
        } else {
          assert pieces[1..] == rest[1..];
          assert JoinWith(c, rest) == rest[0] + [c] + JoinWith(c, rest[1..]);
          assert s == [s[0]] + s[1..];
        }
      }
    }
  }

  /** A string without the separator splits into itself alone. */
  lemma {:induction false} SplitWithoutSeparator(s: string, c: char)
    requires c !in s
    ensures Split(s, c) == [s]
    decreases |s|
  {
    if |s| > 0 {
      assert c !in s[1..] by {
        forall i | 0 <= i < |s[1..]| ensures s[1..][i] != c {
          assert s[1..][i] == s[i + 1];
        }
      }
      SplitWithoutSeparator(s[1..], c);
      assert s == [s[0]] + s[1..];
    }
  }

  /** A separator after a separator-free head cuts off exactly that head. */
  lemma {:induction false} SplitAtSeparator(a: string, b: string, c: char)
    requires c !in a
    ensures Split(a + [c] + b, c) == [a] + Split(b, c)
    decreases |a|
  {
    var s := a + [c] + b;
    if |a| == 0 {
      assert s[1..] == b;
    } else {
      assert c !in a[1..] by {
        forall i | 0 <= i < |a[1..]| ensures a[1..][i] != c {
          assert a[1..][i] == a[i + 1];
        }
      }
      SplitAtSeparator(a[1..], b, c);
      assert s[1..] == a[1..] + [c] + b;
      assert [a[0]] + a[1..] == a;
    }
  }

  /** A separator between two strings separates their pieces. */
  lemma {:induction false} SplitConcat(a: string, b: string, c: char)
    ensures Split(a + [c] + b, c) == Split(a, c) + Split(b, c)
    decreases |a|
  {
    var s := a + [c] + b;
    if |a| == 0 {
      assert s[0] == c && s[1..] == b;
    } else {
      var ra := Split(a[1..], c);
      var sb := Split(b, c);
      assert Split(s, c) == SplitStep(a[0], c, ra + sb) by {
        var tail := a[1..] + [c] + b;
        assert s == [a[0]] + tail;
        SplitConcat(a[1..], b, c);
        SplitCons(a[0], tail, c);
      }
      assert Split(a, c) == SplitStep(a[0], c, ra) by {
        assert a == [a[0]] + a[1..];
        SplitCons(a[0], a[1..], c);
      }
      SplitStepAppend(a[0], c, ra, sb);
    }
  }

  /** The pieces of `[x] + t`, given the pieces `rest` of `t`: the step
      `Split` takes for each character. */
  function SplitStep(x: char, c: char, rest: seq<string>): (pieces: seq<string>)
    requires |rest| >= 1
    ensures |pieces| >= 1
    ensures (forall i :: 0 <= i < |rest| ==> c !in rest[i]) ==> forall i :: 0 <= i < |pieces| ==> c !in pieces[i]
  {
    if x == c then [""] + rest else [[x] + rest[0]] + rest[1..]
  }

  lemma SplitStepAppend(x: char, c: char, ra: seq<string>, sb: seq<string>)
    requires |ra| >= 1
    ensures SplitStep(x, c, ra + sb) == SplitStep(x, c, ra) + sb
  {
    if x != c {
      assert (ra + sb)[1..] == ra[1..] + sb;
    }
  }

  /** One step of `Split`: a leading separator starts a new piece, any other
      character extends the first piece. */
  lemma SplitCons(x: char, t: string, c: char)
    ensures Split([x] + t, c) == SplitStep(x, c, Split(t, c))
  {
    assert ([x] + t)[1..] == t;
  }

  /** A join starts with its first piece. */
  lemma JoinStartsWith(xs: seq<string>, c: char)
    requires |xs| >= 1
    ensures xs[0] <= JoinWith(c, xs)
  {
  }

  /** Splitting a join gives the pieces back when none contains the separator. */
  lemma {:induction false} SplitJoin(xs: seq<string>, c: char)
    requires |xs| >= 1
    requires forall i :: 0 <= i < |xs| ==> c !in xs[i]
    ensures Split(JoinWith(c, xs), c) == xs
    decreases |xs|
  {
    if |xs| == 1 {
      SplitWithoutSeparator(xs[0], c);
    } else {
      SplitJoin(xs[1..], c);
      SplitAtSeparator(xs[0], JoinWith(c, xs[1..]), c);
      assert [xs[0]] + xs[1..] == xs;
    }
  }

  /** The separator occurs in a join only between its pieces. */
  lemma {:induction false} JoinWithoutChar(xs: seq<string>, c: char, d: char)
    requires forall i :: 0 <= i < |xs| ==> d !in xs[i]
    requires |xs| <= 1 || d != c
    ensures d !in JoinWith(c, xs)
    decreases |xs|
  {
    if |xs| > 1 {
      JoinWithoutChar(xs[1..], c, d);
    }
  }

  predicate IsDigit(ch: char) {
    '0' <= ch <= '9'
  }

  predicate AllDigits(s: string) {
    forall i :: 0 <= i < |s| ==> IsDigit(s[i])
  }

  /** Python's `int(s)` on a string of ASCII decimal digits. */
  function DigitsValue(s: string): nat
    requires AllDigits(s)
    decreases |s|
  {
    if |s| == 0 then 0
    else DigitsValue(s[..|s| - 1]) * 10 + (s[|s| - 1] as int - '0' as int)
  }

  /** Leading zeros do not change the value, so `int("01") == int("1")`. */
  lemma {:induction false} LeadingZero(s: string)
    requires AllDigits(s)
    ensures AllDigits("0" + s) && DigitsValue("0" + s) == DigitsValue(s)
    decreases |s|
  {
    if |s| > 0 {
      var t := "0" + s;
      assert t[..|t| - 1] == "0" + s[..|s| - 1];
      LeadingZero(s[..|s| - 1]);
    }
  }
}

=== FILE: wrappers.dfy ===
/** Failure-carrying result types used for the exceptions the resolver raises. */
module Wrappers {

  datatype Option<+T> = None | Some(value: T)

  /** A computation that either produces a value or raises an error. */
  datatype Result<+R, +E> = Success(value: R) | Failure(error: E) {
    predicate IsFailure() {
      Failure?
    }

    function PropagateFailure<U>(): Result<U, E>
      requires Failure?
    {
      Failure(error)
    }

    function Extract(): R
      requires Success?
    {
      value
    }
  }
}
